=== FILE: README.md ===
# Hegic analytics: a Dafny model of the option analytics core

This project models the data path of the Hegic options analytics dashboard.
Every model is written as Dafny datatypes and pure functions, with proofs
about them.

- **Events** (`api.py`) models the event fetcher:
  - the fail-open page loop over the indexing service, which asks for 100 rows per page and advances the skip cursor by 100;
  - the normalisation of option events into the option table: the unix timestamp is kept and the period in seconds is mapped to days.
- **Valuation** (`prepare_data.py`, `get_projected_profit`) models the valuation engine:
  - the nearest-time join of each ACTIVE option with the historical price of its underlying;
  - the break-even price;
  - the projected profit in its four moneyness cases;
  - the left merge of those columns back onto the table by option id;
  - the ITM/OTM label, which follows the sign of the resulting profit.
- **Aggregation** (`prepare_data.py`, `prepare_pnl`, `prepare_bubble`) models the chart preparation:
  - the four boolean masks (symbol, period, status, amount band);
  - the pool P&L table: the holder-profit sums of the (type, pos) groups, followed by one total per option type, and only those totals are negated;
  - the row set of the bubble chart, its bubble size, and the three ways `prepare_bubble` fails.
- **Risk** (`compute_pnl.py`) models the pool-writer calculator:
  - the snapshot of active options that still have life left and a positive strike;
  - the second-order P&L approximation;
  - the user's share of a write pool, which a zero supply makes fail;
  - the user's greeks, which are the pool's greeks negated and scaled by that share;
  - the quote of `trigger_calculator`.
- **Common** and **Records** hold the shared `Option`/`Result` types and the option table's rows.

Modelling conventions:

- Floating point is modelled as exact `real` arithmetic.
- A value that numpy would turn into NaN or an infinity is modelled as a missing value (`None`). This covers a missing price match, a zero amount in the break-even price, and a zero current price in the in-the-money value.
- A pandas sum skips missing values, so a missing profit counts as 0 in the P&L sums.
- The label is computed as `profit >= 0`, so a missing profit is labelled OTM.
- `merge_asof(direction="nearest")` is modelled like this: the price point nearest in time wins. On an equal distance the earlier point wins. Among points with equal times, the first in table order wins.
- Python's `// 1000` on the millisecond timestamps is floor division, and the model's `ToSeconds` states that bound.
- Exceptions become `Err` values of `Common.Failure`:
  - `pd.concat` of no pages gives `NothingToConcatenate`;
  - labelling the totals with a two-element list when only one type is present gives `LengthMismatch`;
  - `idxmax` over the rows of a symbol that has none gives `EmptyArgmax`;
  - an amount quantile of a decile outside 0..10 (q = decile / 10 outside [0, 1]) gives `BadQuantile`;
  - selecting the greek columns of an empty snapshot, which never received them, gives `MissingColumn`;
  - division by a zero supply gives `ZeroDivision`;
  - a symbol other than WBTC/ETH leaves a local name unbound, which gives `UnknownSymbol`. In `trigger_calculator` that name is the user balance; in `prepare_bubble` it is the price-service id.
- The P&L table of an empty selection is not an error. Labelling an empty totals frame with the two-element list creates two "P&L" rows whose type and profit are missing. The model represents them as `UntypedTotal`.
- Network replies and wall-clock time are parameters:
  - `replies[k]` is the service's answer to the k-th page request;
  - `now` is the time used for days to expiry;
  - the spot prices, historical price series, token supplies and wallet balances are inputs;
  - the per-option Black-Scholes greeks are inputs.

The code applies no clamp to the break-even price and no floor to the
projected profit. It also does not reclassify ACTIVE options that are past
their expiration. Two lemmas show the consequences:

- `Valuation.LossBeyondPremium`: an in-the-money CALL can project a loss larger than its premium.
- `Valuation.WorkedCall`: a CALL at spot 110 with strike 100 and break-even 147.5 projects -15/44 and is labelled OTM, although it is in the money by the strike test.

## Model

| member | source | states |
|---|---|---|
| Events.Pages | api.py:29-54 | the pages kept are exactly the non-empty `data[content]` pages answered before the first reply that raised, lacked "data" or the entity key, or was empty |
| Events.LoopOverPages | api.py:23-56 | the k-th request carries skip 100·k; every kept page is non-empty and is the k-th reply's page; the loop stops exactly at the first stopping reply and returns the pages in request order |
| Events.PeriodDays | api.py:84-92 | the five periods 1, 7, 14, 21, 28 days map to their day count (days·86400 = seconds); any other period is missing |
| Events.PeriodDaysRoundTrip | api.py:84-92 | a period of d whole days maps back to d exactly for d in 1, 7, 14, 21, 28, and to a missing value otherwise |
| Events.Normalize | api.py:62-92 | a normalised row copies every modelled event field unchanged (id, account, symbol, status, strike, amount, premium, fees, type, expiration, profit), carries the event timestamp as its unix timestamp, and has a period in days exactly when the seconds are one of the five periods |
| Events.GetData | api.py:59-63 | concatenating the pages fails exactly when the loop returned no pages; otherwise there is one row per fetched event, in page order |
| Events.FetchOptions | api.py:59-63 | fetching the option table fails exactly when the first reply already stops the loop; otherwise it yields at least one row |
| Valuation.ToSeconds | prepare_data.py:161 | millisecond time t becomes the second s with 1000·s <= t < 1000·s + 1000 |
| Valuation.PriceTable | prepare_data.py:152-161 | the price table is the bitcoin series labelled WBTC followed by the ether series labelled ETH, with the times in seconds |
| Valuation.NearestIn | prepare_data.py:163-171 | the match is a point of the row's symbol with minimal time distance; no point of that symbol is nearer, or equally near and earlier; a match is missing only when the symbol has no prices |
| Valuation.PriceAt | prepare_data.py:163-171 | the creation price is the price of a nearest point of the same symbol, and it is missing exactly when that symbol has no price points |
| Valuation.NearestExample | prepare_data.py:163-171 | with prices at times 100 and 200, time 140 takes the first, 160 the second, a tie at 150 the earlier, and another symbol gets nothing |
| Valuation.Breakeven | prepare_data.py:175-184 | the break-even price is the strike moved by the total fee in USD per unit of amount: (be − strike)·amount = fee·price for a CALL, (strike − be)·amount = fee·price for a PUT; with a non-negative price, a positive amount and non-negative fees it is at or above the strike for a CALL and at or below it for a PUT; it is missing without a price or with a zero amount |
| Valuation.ClassifyExact | prepare_data.py:197-221 | the four masks are a partition: OTM CALL iff current < strike, ITM CALL iff current >= strike, OTM PUT iff current > strike, ITM PUT iff current <= strike |
| Valuation.ItmValue | prepare_data.py:213 | the in-the-money value v satisfies v·current = gain·amount, and is missing when the gain is missing or the current price is 0 |
| Valuation.ProjectedProfitSteps | prepare_data.py:197-221 | overwriting a missing column by the four masked assignments in turn gives the same value as the four-case analysis: the cases are exhaustive and later masks never overwrite an earlier case |
| Valuation.ProjectedProfitMeaning | prepare_data.py:197-221 | out of the money the profit is exactly −premium; in the money it is present iff the break-even price and a non-zero price exist, satisfies profit·current = gain over break-even·amount, and is non-negative iff the current price has passed the break-even price |
| Valuation.ValueActive | prepare_data.py:163-221 | an ACTIVE row's valuation carries its id and the break-even price at the nearest creation price; at its symbol's spot price it projects exactly −premium out of the money, and in the money a value v with v·spot = gain over break-even·amount, present exactly when the break-even price exists and the spot price is non-zero |
| Valuation.ValueRow | prepare_data.py:224-231 | after the merge an ACTIVE row carries the projected profit and its break-even price, any other row is unchanged with no break-even price, and the label is ITM iff the resulting profit is present and non-negative |
| Valuation.MergeSuffix | prepare_data.py:224 | with unique ids, the left merge of any suffix of the table against the ACTIVE valuations is the row-by-row reference valuation of that suffix |
| Valuation.MatchesOfRow | prepare_data.py:224 | with unique ids, a row matches exactly its own valuation if it is ACTIVE and nothing otherwise |
| Valuation.GetProjectedProfitPerRow | prepare_data.py:124-231 | with unique ids, get_projected_profit keeps one row per input row, in order, each the reference valuation of that row |
| Valuation.ItmByStrikeLabelledOtm | prepare_data.py:211-231 | an ACTIVE CALL at or above its strike but below its break-even price is labelled OTM |
| Valuation.LossBeyondPremium | prepare_data.py:211-215 | an in-the-money CALL can project a loss larger than its premium; no floor is applied |
| Valuation.WorkedCall | prepare_data.py:175-231 | strike 100, amount 1, premium 2, fee 0.5, creation price 95 and spot 110 give break-even 147.5, profit −15/44 and label OTM |
| Aggregation.WhereMembers | prepare_data.py:35-41 | a boolean mask keeps exactly the rows that satisfy it |
| Aggregation.WhereCommute | prepare_data.py:34-41 | two masks applied in either order give the same rows in the same order |
| Aggregation.SelectRowsMembers | prepare_data.py:98-102 | the selection keeps exactly the rows with the chosen symbol, a period in the period set (never a missing one), a status in the status set and an amount in the inclusive band [lb, ub] |
| Aggregation.SelectRowsSinglePass | prepare_data.py:98-102 | the four successive masks are one pass in table order keeping the rows that satisfy all four |
| Aggregation.SortByType | prepare_data.py:34 | sorting by type is a permutation that puts every CALL row before every PUT row |
| Aggregation.BubbleRowsAreSelected | prepare_data.py:34-41 | sorting before masking equals masking before sorting, so the bubble rows are a permutation of exactly the selected rows, CALLs first |
| Aggregation.PrepareBubble | prepare_data.py:23-78 | an unknown symbol raises before anything else; otherwise it raises at the latest-row lookup or at the amount quantiles; a quantile error means a decile lies outside 0..10; a success has both deciles in 0..10 and a bubble size in 10..100 |
| Aggregation.PrepareBubbleFails | prepare_data.py:23-40 | prepare_bubble fails exactly when the symbol is not WBTC/ETH, no row has the symbol, or a decile lies outside 0..10, and the error names the first of these in that order |
| Aggregation.PrepareBubbleOk | prepare_data.py:34-41 | a successful bubble chart plots exactly the selected rows, CALLs before PUTs |
| Aggregation.BubbleSize | prepare_data.py:72-78 | the bubble size lies between 10 and 100 for a non-negative decile, is at most 46 up to decile 9, and is 100 above it |
| Aggregation.BubbleSizeMonotone | prepare_data.py:74-78 | a larger upper decile never gives a smaller bubble |
| Aggregation.SumSplitsByPos | prepare_data.py:105-107 | the profit of a set of rows is the ITM rows' profit plus the OTM rows' profit |
| Aggregation.GroupTableTypes | prepare_data.py:105-111 | an option type appears in the group table exactly when the selection has a row of that type |
| Aggregation.GroupTableSums | prepare_data.py:105-114 | a type's group rows add up to the summed profit of that type's selected rows |
| Aggregation.GroupRowsAreGroups | prepare_data.py:105-111 | each row of the group table is the profit sum of its non-empty (type, pos) group, and the rows are strictly in (type, pos) order |
| Aggregation.PreparePnlFails | prepare_data.py:114-115 | the P&L table fails exactly when the selection has rows of one option type only, leaving one total for the two-element label |
| Aggregation.PreparePnlEmpty | prepare_data.py:105-121 | the table is the two "P&L" rows with missing type and profit exactly when the selection is empty |
| Aggregation.PreparePnlOk | prepare_data.py:114-119 | a successful table of a non-empty selection is the group table followed by the CALL and PUT totals, negated; group rows keep their sign |
| Aggregation.PreparePnlTable | prepare_data.py:96-121 | a successful table is the two untyped "P&L" rows for an empty selection; otherwise it has at least four rows in strict (type, pos) then total order, every group row is the sum of its non-empty group, and the last two rows are minus the selected CALL profit and minus the selected PUT profit |
| Aggregation.PnlTableBalances | prepare_data.py:105-119 | the pool mirrors the holders: for each option type the rows of the P&L table add up to zero |
| Risk.DaysToExpiry | compute_pnl.py:93 | days to expiry times 86400 is the seconds left until expiration, and it is positive exactly when the option expires after now |
| Risk.KeepTradableMembers | compute_pnl.py:96 | the row filter keeps exactly the rows with days to expiry > 0 and strike > 0 |
| Risk.GetNewData | compute_pnl.py:83-96 | the refresh fails exactly when the loop returned no pages; every row it keeps has life left and a positive strike |
| Risk.GetNewDataRows | compute_pnl.py:91-96 | the snapshot holds exactly the fetched options that expire after now and have a positive strike, each stamped with its days to expiry |
| Risk.LoopOverActivePages | compute_pnl.py:44-80 | the calculator's copy of the page loop requests skips 100·k and keeps the same pages as the fetcher's loop on entity "options" |
| Risk.Pnl | compute_pnl.py:189-191 | with no price move the P&L is theta times the days; with no time passing it is the move times (delta + gamma·move/2); with neither it is 0 |
| Risk.PnlScales | compute_pnl.py:189-191 | the approximation is linear in the greeks: scaling all three by k scales the P&L by k |
| Risk.PoolGreeksConcat | compute_pnl.py:224-226 | a symbol's pool greeks add over any split of the snapshot |
| Risk.PoolGreeksOtherSymbols | compute_pnl.py:225 | rows of other symbols do not contribute to a symbol's pool greeks |
| Risk.UserShare | compute_pnl.py:222 | the share times the total supply is the user's holding and is non-negative; a zero supply raises |
| Risk.UserPnlIsShare | compute_pnl.py:224-234 | the P&L of the user's greeks is minus the share times the P&L of the pool's greeks |
| Risk.TriggerCalculator | compute_pnl.py:194-240 | the quote fails exactly for an unknown symbol, an empty pool (ZeroDivision) or an empty snapshot (no greek columns, MissingColumn); otherwise it echoes coin, price and day; it is 0 at the spot price on day 0, and 0 for a user holding no write tokens |
| Risk.TriggerCalculatorShare | compute_pnl.py:210-234 | the quoted P&L is minus the user's pool share times the P&L of the pool's summed greeks for the move from spot and the given days |

## Left out

- Network and chain I/O are not modelled. This covers the GraphQL POST, CoinGecko and the web3 contract calls. Their results are parameters: page replies, price series, spot prices, supplies and balances.
- `Events.LoopOverPages` requires the entity to be a key of the `queries` table (api.py:31, api.py:114-166). For any other entity the source raises `KeyError` before the first request; every call site passes a key of the table.
- The `page` counter and the `print` calls of both page loops are left out, because they have no effect on the result.
- `get_data` also handles the `poolBalances` and `bondingCurve` entities. Only the `options` path is modelled.
- The options query also returns `lockedAmount`, `exercise_timestamp`, `exercise_tx`, `impliedVolatility` and `block`. `get_data` converts them too (api.py:70-93), but among the modelled operations only `prepare_bubble` reads one of them: it reads the latest implied volatility, for a chart label. So the option record does not carry these five columns.
- The float casts and datetime conversions of `get_data` are left out: numbers arrive already parsed as reals, and times stay as unix seconds.
- `prepare_bubble` also computes the CoinGecko spot price, the implied volatility of the latest row, the short id and the column renames for plotting. These are presentation and I/O, so they are left out. Its three failures are modelled by `Aggregation.PrepareBubble`: an unknown symbol, no row of the symbol for `idxmax`, and a decile outside 0..10 for the amount quantiles.
- `Aggregation.PrepareBubble` does not model the `int(...)` failure when the latest row's implied volatility is missing, because the option record carries no implied-volatility column.
- The amount band [lb, ub] is an input. The linear interpolation that pandas' `quantile` uses to compute it is not modelled.
- `Aggregation.PreparePnl` takes the band [lb, ub] rather than the deciles, so it does not model the `ValueError` that `prepare_pnl`'s own quantiles raise for a decile outside 0..10 (prepare_data.py:101). `Aggregation.PrepareBubble` models the same error for the bubble chart.
- `Aggregation.SortByType` is stable, while pandas' default sort is not. `SortByType` itself promises only a permutation with CALLs first, which holds of either sort. But `Aggregation.BubbleRowsAreSelected` and `Aggregation.PrepareBubbleOk` state exact sequence equalities. Those equalities fix an order among rows of the same type that pandas does not promise.
- `Valuation.NearestIn` breaks a tie between points with equal timestamps by table order. pandas does not document which duplicate `merge_asof` picks.
- `Valuation.Breakeven`: with a zero amount, numpy gives an infinite or NaN break-even price. It is modelled as missing.
- `Valuation.ItmValue`: with a zero current price, numpy gives an infinity (labelled ITM when positive) or NaN. It is modelled as missing, and so is labelled OTM.
- The two-decimal rounding of `strike` and `breakeven` at the end of `get_projected_profit` is left out.
- `Risk.TriggerCalculator`: the user's greeks are not rounded to two decimals before the P&L is computed, so the proved P&L is the unrounded one.
- `mibian_bs` and `calculate_greeks` are Black-Scholes library calls and a square root of the contract's implied volatility. The per-position greeks are inputs.
- `Risk.TriggerCalculator` takes the wallet balances directly, so it does not model the `ValueError` that `toChecksumAddress` raises on a malformed address (compute_pnl.py:201).
- The background refresh thread, `time.sleep`, and the module-level globals and their updates are left out.
- `app.py`, `plots.py`, `abi_stuff.py` and `setup.py` are UI, plotting, contract bindings and packaging, so they are not part of this model.

=== FILE: aggregation.dfy ===
/** The aggregator: row selection for the charts, the pool P&L table of
    prepare_pnl and the row set and bubble size of prepare_bubble. */
module Aggregation {
  import opened Common
  import opened Records

  // ---------------------------------------------------------------------------
  // Boolean masks over the valued table
  // ---------------------------------------------------------------------------

  /** One boolean mask over valued rows. */
  datatype Criterion =
    | SymbolIs(symbol: string)
    | PeriodIn(periods: set<int>)
    | StatusIn(statuses: set<Status>)
    | AmountBetween(lb: real, ub: real)
    | TypeIs(t: OptionType)
    | PosIs(p: Pos)

  predicate Holds(c: Criterion, v: ValuedOption)
  {
    match c
    case SymbolIs(s) => v.rec.symbol == s
    case PeriodIn(ps) => v.rec.periodDays.Some? && v.rec.periodDays.value in ps  // a missing period is never in the set
    case StatusIn(ss) => v.rec.status in ss
    case AmountBetween(lb, ub) => lb <= v.rec.amount <= ub                         // inclusive on both ends
    case TypeIs(t) => v.rec.optType == t
    case PosIs(p) => v.pos == p
  }

  /** Apply one mask, keeping row order. */
  function Where(rows: seq<ValuedOption>, c: Criterion): (r: seq<ValuedOption>)
    ensures |r| <= |rows|
  {
    if |rows| == 0 then []
    else (if Holds(c, rows[0]) then [rows[0]] else []) + Where(rows[1..], c)
  }

  /** A mask keeps exactly the rows that satisfy it. */
  lemma {:induction false} WhereMembers(rows: seq<ValuedOption>, c: Criterion)
    ensures forall v :: v in Where(rows, c) <==> v in rows && Holds(c, v)
  {
    if |rows| > 0 {
      WhereMembers(rows[1..], c);
      assert rows == [rows[0]] + rows[1..];
    }
  }

  predicate HoldsAll(cs: seq<Criterion>, v: ValuedOption)
  {
    forall i :: 0 <= i < |cs| ==> Holds(cs[i], v)
  }

  /** Single pass keeping the rows that satisfy every mask. */
  function WhereAll(rows: seq<ValuedOption>, cs: seq<Criterion>): seq<ValuedOption>
  {
    if |rows| == 0 then []
    else (if HoldsAll(cs, rows[0]) then [rows[0]] else []) + WhereAll(rows[1..], cs)
  }

  lemma {:induction false} WhereAllNone(rows: seq<ValuedOption>)
    ensures WhereAll(rows, []) == rows
  {
    if |rows| > 0 {
      WhereAllNone(rows[1..]);
    }
  }

  /** Masking in turn is masking once with the conjunction. */
  lemma {:induction false} WhereAfterWhereAll(rows: seq<ValuedOption>, cs: seq<Criterion>, c: Criterion)
    ensures Where(WhereAll(rows, cs), c) == WhereAll(rows, cs + [c])
  {
    if |rows| > 0 {
      var h := rows[0];
      assert HoldsAll(cs + [c], h) <==> HoldsAll(cs, h) && Holds(c, h) by {
        assert (cs + [c])[|cs|] == c;
        assert forall i :: 0 <= i < |cs| ==> (cs + [c])[i] == cs[i];
      }
      WhereAfterWhereAll(rows[1..], cs, c);
      var tail := WhereAll(rows[1..], cs);
      if HoldsAll(cs, h) {
        assert ([h] + tail)[1..] == tail;
      } else {
        assert WhereAll(rows, cs) == tail;
      }
    }
  }

  lemma {:induction false} WhereConcat(a: seq<ValuedOption>, b: seq<ValuedOption>, c: Criterion)
    ensures Where(a + b, c) == Where(a, c) + Where(b, c)
  {
    if |a| > 0 {
      assert (a + b)[1..] == a[1..] + b;
      WhereConcat(a[1..], b, c);
    } else {
      assert a + b == b;
    }
  }

  /** Two masks commute. */
  lemma {:induction false} WhereCommute(rows: seq<ValuedOption>, c1: Criterion, c2: Criterion)
    ensures Where(Where(rows, c1), c2) == Where(Where(rows, c2), c1)
  {
    if |rows| > 0 {
      var h, t := rows[0], rows[1..];
      WhereCommute(t, c1, c2);
      assert rows == [h] + t;
      WhereCons(h, t, c1);
      WhereCons(h, t, c2);
      var a, b := Where(t, c1), Where(t, c2);
      if Holds(c1, h) {
        WhereCons(h, a, c2);
      } else {
        assert Where(rows, c1) == a;
      }
      if Holds(c2, h) {
        WhereCons(h, b, c1);
      } else {
        assert Where(rows, c2) == b;
      }
    }
  }

  lemma WhereCons(h: ValuedOption, t: seq<ValuedOption>, c: Criterion)
    ensures Where([h] + t, c) == (if Holds(c, h) then [h] else []) + Where(t, c)
  {
    assert ([h] + t)[1..] == t;
  }

  // ---------------------------------------------------------------------------
  // The chart selection
  // ---------------------------------------------------------------------------

  /** The user's selection: one symbol, a set of periods in days, a set of
      statuses and the amount band [lb, ub] (the band edges are the amount
      quantiles the chart computes). */
  datatype Selection = Selection(symbol: string, periods: set<int>, statuses: set<Status>, lb: real, ub: real)

  function Masks(sel: Selection): seq<Criterion>
  {
    [SymbolIs(sel.symbol), PeriodIn(sel.periods), StatusIn(sel.statuses), AmountBetween(sel.lb, sel.ub)]
  }

  predicate Selected(sel: Selection, v: ValuedOption)
  {
    && v.rec.symbol == sel.symbol
    && v.rec.periodDays.Some? && v.rec.periodDays.value in sel.periods
    && v.rec.status in sel.statuses
    && sel.lb <= v.rec.amount <= sel.ub
  }

  /** The four masks in the order the chart code applies them. */
  function SelectRows(rows: seq<ValuedOption>, sel: Selection): seq<ValuedOption>
  {
    Where(Where(Where(Where(rows, SymbolIs(sel.symbol)), PeriodIn(sel.periods)),
                StatusIn(sel.statuses)), AmountBetween(sel.lb, sel.ub))
  }

  /** Every row the chart code returns has the chosen symbol, a period in the
      period set, a status in the status set and lb <= amount <= ub; every
      such row is returned. */
  lemma SelectRowsMembers(rows: seq<ValuedOption>, sel: Selection)
    ensures |SelectRows(rows, sel)| <= |rows|
    ensures forall v :: v in SelectRows(rows, sel) <==> v in rows && Selected(sel, v)
  {
    var r1 := Where(rows, SymbolIs(sel.symbol));
    var r2 := Where(r1, PeriodIn(sel.periods));
    var r3 := Where(r2, StatusIn(sel.statuses));
    WhereMembers(rows, SymbolIs(sel.symbol));
    WhereMembers(r1, PeriodIn(sel.periods));
    WhereMembers(r2, StatusIn(sel.statuses));
    WhereMembers(r3, AmountBetween(sel.lb, sel.ub));
  }

  /** The successive masks are one pass keeping the rows that pass every
      mask, in table order. */
  lemma SelectRowsSinglePass(rows: seq<ValuedOption>, sel: Selection)
    ensures SelectRows(rows, sel) == WhereAll(rows, Masks(sel))
  {
    var c1, c2, c3, c4 := SymbolIs(sel.symbol), PeriodIn(sel.periods), StatusIn(sel.statuses), AmountBetween(sel.lb, sel.ub);
    WhereAllNone(rows);
    WhereAfterWhereAll(rows, [], c1);
    assert [] + [c1] == [c1];
    var w1 := Where(rows, c1);
    assert w1 == WhereAll(rows, [c1]);
    WhereAfterWhereAll(rows, [c1], c2);
    assert [c1] + [c2] == [c1, c2];
    var w2 := Where(w1, c2);
    assert w2 == WhereAll(rows, [c1, c2]);
    WhereAfterWhereAll(rows, [c1, c2], c3);
    assert [c1, c2] + [c3] == [c1, c2, c3];
    var w3 := Where(w2, c3);
    assert w3 == WhereAll(rows, [c1, c2, c3]);
    WhereAfterWhereAll(rows, [c1, c2, c3], c4);
    assert [c1, c2, c3] + [c4] == Masks(sel);
  }

  // ---------------------------------------------------------------------------
  // Bubble chart
  // ---------------------------------------------------------------------------

  /** Rows ordered by option type: every CALL before every PUT. */
  function SortByType(rows: seq<ValuedOption>): (r: seq<ValuedOption>)
    ensures multiset(r) == multiset(rows)
    ensures forall i, j :: 0 <= i < j < |r| && r[j].rec.optType == Call ==> r[i].rec.optType == Call
  {
    var calls := Where(rows, TypeIs(Call));
    var puts := Where(rows, TypeIs(Put));
    TypeSplitMultiset(rows);
    WhereIndexHolds(rows, TypeIs(Call));
    WhereIndexHolds(rows, TypeIs(Put));
    calls + puts
  }

  /** Every row a mask keeps satisfies it. */
  lemma WhereIndexHolds(rows: seq<ValuedOption>, c: Criterion)
    ensures forall i :: 0 <= i < |Where(rows, c)| ==> Holds(c, Where(rows, c)[i])
  {
    var r := Where(rows, c);
    WhereMembers(rows, c);
    forall i | 0 <= i < |r|
      ensures Holds(c, r[i])
    {
      assert r[i] in r;
    }
  }

  lemma {:induction false} TypeSplitMultiset(rows: seq<ValuedOption>)
    ensures multiset(Where(rows, TypeIs(Call))) + multiset(Where(rows, TypeIs(Put))) == multiset(rows)
  {
    if |rows| > 0 {
      var h, t := rows[0], rows[1..];
      TypeSplitMultiset(t);
      TypeSplitStep(h, t);
      assert rows == [h] + t;
    }
  }

  lemma TypeSplitStep(h: ValuedOption, t: seq<ValuedOption>)
    ensures multiset(Where([h] + t, TypeIs(Call))) + multiset(Where([h] + t, TypeIs(Put)))
            == multiset([h]) + multiset(Where(t, TypeIs(Call))) + multiset(Where(t, TypeIs(Put)))
  {
    WhereCons(h, t, TypeIs(Call));
    WhereCons(h, t, TypeIs(Put));
  }

  /** The rows the bubble chart plots: sorted by type, then selected. */
  function BubbleRows(rows: seq<ValuedOption>, sel: Selection): seq<ValuedOption>
  {
    SelectRows(SortByType(rows), sel)
  }

  /** Sorting before selecting is selecting before sorting, so the bubble rows
      are exactly the selected rows, CALLs first. */
  lemma BubbleRowsAreSelected(rows: seq<ValuedOption>, sel: Selection)
    ensures BubbleRows(rows, sel) == SortByType(SelectRows(rows, sel))
    ensures forall v :: v in BubbleRows(rows, sel) ==> Selected(sel, v)
    ensures multiset(BubbleRows(rows, sel)) == multiset(SelectRows(rows, sel))
  {
    SelectRowsMembers(rows, sel);
    var calls := Where(rows, TypeIs(Call));
    var puts := Where(rows, TypeIs(Put));
    SelectConcat(calls, puts, sel);
    SelectCommutesWithType(rows, sel, Call);
    SelectCommutesWithType(rows, sel, Put);
    var x := SelectRows(rows, sel);
    forall v | v in BubbleRows(rows, sel)
      ensures Selected(sel, v)
    {
      assert v in multiset(SortByType(x));
      assert v in multiset(x);
    }
  }

  lemma SelectConcat(a: seq<ValuedOption>, b: seq<ValuedOption>, sel: Selection)
    ensures SelectRows(a + b, sel) == SelectRows(a, sel) + SelectRows(b, sel)
  {
    var c1 := SymbolIs(sel.symbol);
    var c2 := PeriodIn(sel.periods);
    var c3 := StatusIn(sel.statuses);
    var c4 := AmountBetween(sel.lb, sel.ub);
    WhereConcat(a, b, c1);
    WhereConcat(Where(a, c1), Where(b, c1), c2);
    WhereConcat(Where(Where(a, c1), c2), Where(Where(b, c1), c2), c3);
    WhereConcat(Where(Where(Where(a, c1), c2), c3), Where(Where(Where(b, c1), c2), c3), c4);
  }

  lemma SelectCommutesWithType(rows: seq<ValuedOption>, sel: Selection, t: OptionType)
    ensures SelectRows(Where(rows, TypeIs(t)), sel) == Where(SelectRows(rows, sel), TypeIs(t))
  {
    var c := TypeIs(t);
    var c1 := SymbolIs(sel.symbol);
    var c2 := PeriodIn(sel.periods);
    var c3 := StatusIn(sel.statuses);
    var c4 := AmountBetween(sel.lb, sel.ub);
    WhereCommute(rows, c, c1);
    WhereCommute(Where(rows, c1), c, c2);
    WhereCommute(Where(Where(rows, c1), c2), c, c3);
    WhereCommute(Where(Where(Where(rows, c1), c2), c3), c, c4);
  }

  /** What prepare_bubble hands to the chart besides presentation columns:
      the rows to plot and the bubble size. */
  datatype Bubble = Bubble(rows: seq<ValuedOption>, size: real)

  predicate HasSymbol(rows: seq<ValuedOption>, symbol: string)
  {
    exists v :: v in rows && v.rec.symbol == symbol
  }

  /** A decile whose quantile q = decile / 10 lies in [0, 1]. */
  predicate DecileInRange(d: real)
  {
    0.0 <= d <= 10.0
  }

  /** prepare_bubble for the lower and upper amount deciles. A symbol outside
      WBTC/ETH leaves the price-service id unbound; a symbol without rows
      leaves the latest-row lookup (idxmax) nothing to choose from; then the
      amount quantiles reject a decile outside 0..10. */
  function PrepareBubble(rows: seq<ValuedOption>, sel: Selection, lowerDecile: real, upperDecile: real): (r: Result<Bubble>)
    ensures r.Err? && !KnownSymbol(sel.symbol) ==> r.error == UnknownSymbol
    ensures r.Err? && KnownSymbol(sel.symbol) ==> r.error == EmptyArgmax || r.error == BadQuantile
    ensures r.Err? && r.error == BadQuantile ==> !(DecileInRange(lowerDecile) && DecileInRange(upperDecile))
    ensures r.Ok? ==> DecileInRange(lowerDecile) && DecileInRange(upperDecile)
    ensures r.Ok? ==> 10.0 <= r.value.size <= 100.0
  {
    if !KnownSymbol(sel.symbol) then Err(UnknownSymbol)
    else if |Where(SortByType(rows), SymbolIs(sel.symbol))| == 0 then Err(EmptyArgmax)
    else if !(DecileInRange(lowerDecile) && DecileInRange(upperDecile)) then Err(BadQuantile)
    else Ok(Bubble(BubbleRows(rows, sel), BubbleSize(upperDecile)))
  }

  /** prepare_bubble fails exactly for an unknown symbol, a symbol with no
      rows, or a decile outside 0..10, and reports the first of these. */
  lemma PrepareBubbleFails(rows: seq<ValuedOption>, sel: Selection, lowerDecile: real, upperDecile: real)
    ensures var r := PrepareBubble(rows, sel, lowerDecile, upperDecile);
            && (r.Err? <==> !KnownSymbol(sel.symbol) || !HasSymbol(rows, sel.symbol)
                            || !(DecileInRange(lowerDecile) && DecileInRange(upperDecile)))
            && (r.Err? ==> r.error == if !KnownSymbol(sel.symbol) then UnknownSymbol
                                      else if !HasSymbol(rows, sel.symbol) then EmptyArgmax
                                      else BadQuantile)
  {
    var sorted := SortByType(rows);
    var w := Where(sorted, SymbolIs(sel.symbol));
    WhereMembers(sorted, SymbolIs(sel.symbol));
    if HasSymbol(rows, sel.symbol) {
      var v :| v in rows && v.rec.symbol == sel.symbol;
      assert v in multiset(rows);
      assert v in multiset(sorted);
      assert v in w;
    }
    if |w| > 0 {
      var v := w[0];
      assert v in w;
      assert v in multiset(sorted);
      assert v in multiset(rows);
    }
  }

  /** A successful bubble chart plots exactly the selected rows, CALLs first. */
  lemma PrepareBubbleOk(rows: seq<ValuedOption>, sel: Selection, lowerDecile: real, upperDecile: real)
    requires PrepareBubble(rows, sel, lowerDecile, upperDecile).Ok?
    ensures var b := PrepareBubble(rows, sel, lowerDecile, upperDecile).value;
            && b.rows == SortByType(SelectRows(rows, sel))
            && (forall v :: v in b.rows <==> v in rows && Selected(sel, v))
  {
    BubbleRowsAreSelected(rows, sel);
    SelectRowsMembers(rows, sel);
    var x := SelectRows(rows, sel);
    forall v
      ensures v in SortByType(x) <==> v in x
    {
      assert v in SortByType(x) <==> v in multiset(SortByType(x));
      assert v in x <==> v in multiset(x);
    }
  }

  /** Bubble size for the upper amount decile (0..10): scaled to a quantile
      q = decile / 10, the size is 10 + 40q up to q = 0.9 and 100 above. */
  function BubbleSize(upperDecile: real): (r: real)
    ensures 0.0 <= upperDecile ==> 10.0 <= r <= 100.0
    ensures upperDecile <= 9.0 ==> r <= 46.0
    ensures upperDecile > 9.0 ==> r == 100.0
  {
    var q := upperDecile / 10.0;
    if q <= 0.9 then 10.0 + q * 40.0 else 100.0
  }

  /** A larger decile never gives a smaller bubble (the size jumps from 46
      to 100 just above decile 9). */
  lemma BubbleSizeMonotone(d1: real, d2: real)
    requires d1 <= d2
    ensures BubbleSize(d1) <= BubbleSize(d2)
  {
  }

  // ---------------------------------------------------------------------------
  // Pool P&L
  // ---------------------------------------------------------------------------

  /** Sum of the profit column; missing profits are skipped, as pandas does. */
  function SumProfit(rows: seq<ValuedOption>): real
  {
    if |rows| == 0 then 0.0 else OrZero(rows[0].rec.profit) + SumProfit(rows[1..])
  }

  lemma {:induction false} SumProfitConcat(a: seq<ValuedOption>, b: seq<ValuedOption>)
    ensures SumProfit(a + b) == SumProfit(a) + SumProfit(b)
  {
    if |a| > 0 {
      assert (a + b)[1..] == a[1..] + b;
      SumProfitConcat(a[1..], b);
    } else {
      assert a + b == b;
    }
  }

  /** Every row is ITM or OTM, so a sum splits into the two label groups. */
  lemma {:induction false} SumSplitsByPos(rows: seq<ValuedOption>)
    ensures SumProfit(rows) == SumProfit(Where(rows, PosIs(ITM))) + SumProfit(Where(rows, PosIs(OTM)))
  {
    if |rows| > 0 {
      var h := rows[0];
      SumSplitsByPos(rows[1..]);
      SumProfitConcat(if h.pos == ITM then [h] else [], Where(rows[1..], PosIs(ITM)));
      SumProfitConcat(if h.pos == OTM then [h] else [], Where(rows[1..], PosIs(OTM)));
      assert SumProfit([h]) == OrZero(h.rec.profit) by { assert [h][1..] == []; }
    }
  }

  /** Label of a P&L table row: a (type, pos) group, or the pool total "P&L". */
  datatype PnlLabel = Group(pos: Pos) | Total

  /** A row of the P&L table. `UntypedTotal` is a "P&L" row whose type and
      profit are both missing, as labelling an empty totals frame creates. */
  datatype PnlRow = PnlRow(optType: OptionType, kind: PnlLabel, profit: real) | UntypedTotal

  /** A (type, pos) group row. */
  predicate IsGroupRow(r: PnlRow)
  {
    r.PnlRow? && r.kind.Group?
  }

  /** Position of a row in the table's order: groups by (type, pos), then the
      totals by type. */
  function Rank(r: PnlRow): nat
  {
    match r
    case UntypedTotal => 6
    case PnlRow(t, Group(p), _) => (if t == Call then 0 else 2) + (if p == ITM then 0 else 1)
    case PnlRow(t, Total, _) => if t == Call then 4 else 5
  }

  function GroupOf(rows: seq<ValuedOption>, t: OptionType, p: Pos): seq<ValuedOption>
  {
    Where(Where(rows, TypeIs(t)), PosIs(p))
  }

  function KeyType(k: nat): OptionType
  {
    if k < 2 then Call else Put
  }

  function KeyPos(k: nat): Pos
  {
    if k % 2 == 0 then ITM else OTM
  }

  /** Rows strictly increasing in rank. */
  predicate Ordered(s: seq<PnlRow>)
  {
    forall i, j :: 0 <= i < j < |s| ==> Rank(s[i]) < Rank(s[j])
  }

  /** Appending at most one row of rank k to rows ranked below k keeps the
      order strict and the ranks below k + 1. */
  lemma AppendRanked(a: seq<PnlRow>, h: seq<PnlRow>, k: nat)
    requires Ordered(a) && forall i :: 0 <= i < |a| ==> Rank(a[i]) < k
    requires |h| <= 1 && (|h| == 1 ==> Rank(h[0]) == k)
    ensures Ordered(a + h) && forall i :: 0 <= i < |a + h| ==> Rank((a + h)[i]) < k + 1
  {
    var r := a + h;
    forall i, j | 0 <= i < j < |r|
      ensures Rank(r[i]) < Rank(r[j])
    {
      if j >= |a| {
        assert r[j] == h[0];
      }
    }
  }

  /** `row` is the holder-sign sum of a non-empty (type, pos) group. */
  predicate IsGroupSum(rows: seq<ValuedOption>, row: PnlRow)
  {
    && IsGroupRow(row)
    && var g := GroupOf(rows, row.optType, row.kind.pos);
       |g| > 0 && row.profit == SumProfit(g)
  }

  /** The groupby-sum table: the four (type, pos) keys in order, one row per
      non-empty group. */
  function GroupRows(rows: seq<ValuedOption>): seq<PnlRow>
  {
    GroupHere(rows, 0) + GroupHere(rows, 1) + GroupHere(rows, 2) + GroupHere(rows, 3)
  }

  function HasType(agg: seq<PnlRow>, t: OptionType): bool
  {
    |agg| > 0 && ((agg[0].PnlRow? && agg[0].optType == t) || HasType(agg[1..], t))
  }

  function SumOfType(agg: seq<PnlRow>, t: OptionType): real
  {
    if |agg| == 0 then 0.0
    else (if agg[0].PnlRow? && agg[0].optType == t then agg[0].profit else 0.0) + SumOfType(agg[1..], t)
  }

  /** The per-type totals of the group table, one row per type present. */
  function Totals(agg: seq<PnlRow>): seq<PnlRow>
  {
    (if HasType(agg, Call) then [PnlRow(Call, Total, SumOfType(agg, Call))] else [])
    + (if HasType(agg, Put) then [PnlRow(Put, Total, SumOfType(agg, Put))] else [])
  }

  /** Negate the profit of the "P&L" rows only; a missing profit stays missing. */
  function FlipTotals(rows: seq<PnlRow>): seq<PnlRow>
  {
    if |rows| == 0 then []
    else [if rows[0].PnlRow? && rows[0].kind == Total then rows[0].(profit := -rows[0].profit) else rows[0]]
         + FlipTotals(rows[1..])
  }

  /** prepare_pnl on a valued table. Labelling the totals with a two-element
      list fails when exactly one option type is present. */
  function PreparePnl(rows: seq<ValuedOption>, sel: Selection): Result<seq<PnlRow>>
  {
    WithTotals(GroupRows(SelectRows(rows, sel)))
  }

  /** Append the per-type totals to a group table and negate them. The
      two-element "P&L" label fails on a single total; on no totals it
      creates two rows whose type and profit are missing. */
  function WithTotals(agg: seq<PnlRow>): Result<seq<PnlRow>>
  {
    var z := Totals(agg);
    if |z| == 1 then Err(LengthMismatch)
    else if |z| == 0 then Ok(FlipTotals(agg + [UntypedTotal, UntypedTotal]))
    else Ok(FlipTotals(agg + z))
  }

  predicate HasRowOfType(rows: seq<ValuedOption>, t: OptionType)
  {
    exists v :: v in rows && v.rec.optType == t
  }

  lemma {:induction false} HasTypeConcat(a: seq<PnlRow>, b: seq<PnlRow>, t: OptionType)
    ensures HasType(a + b, t) <==> HasType(a, t) || HasType(b, t)
  {
    if |a| > 0 {
      assert (a + b)[1..] == a[1..] + b;
      HasTypeConcat(a[1..], b, t);
    } else {
      assert a + b == b;
    }
  }

  lemma HasTypeHere(x: seq<ValuedOption>, k: nat, t: OptionType)
    requires k < 4
    ensures HasType(GroupHere(x, k), t) <==> KeyType(k) == t && |GroupOf(x, KeyType(k), KeyPos(k))| > 0
  {
  }

  /** The selection has a row of type t exactly when one of its groups is non-empty. */
  lemma TypeRowsInGroups(x: seq<ValuedOption>, t: OptionType)
    ensures HasRowOfType(x, t) <==> |GroupOf(x, t, ITM)| > 0 || |GroupOf(x, t, OTM)| > 0
  {
    var xt := Where(x, TypeIs(t));
    WhereMembers(x, TypeIs(t));
    WhereMembers(xt, PosIs(ITM));
    WhereMembers(xt, PosIs(OTM));
    if HasRowOfType(x, t) {
      var v :| v in x && v.rec.optType == t;
      assert v in xt;
      assert v in GroupOf(x, t, v.pos);
    }
    if |GroupOf(x, t, ITM)| > 0 {
      assert GroupOf(x, t, ITM)[0] in xt;
    }
    if |GroupOf(x, t, OTM)| > 0 {
      assert GroupOf(x, t, OTM)[0] in xt;
    }
  }

  /** A type appears in the group table exactly when the selection has a row of it. */
  lemma GroupTableTypes(x: seq<ValuedOption>, t: OptionType)
    ensures HasType(GroupRows(x), t) <==> HasRowOfType(x, t)
  {
    var h0, h1, h2, h3 := GroupHere(x, 0), GroupHere(x, 1), GroupHere(x, 2), GroupHere(x, 3);
    HasTypeConcat(h0 + h1 + h2, h3, t);
    HasTypeConcat(h0 + h1, h2, t);
    HasTypeConcat(h0, h1, t);
    HasTypeHere(x, 0, t);
    HasTypeHere(x, 1, t);
    HasTypeHere(x, 2, t);
    HasTypeHere(x, 3, t);
    TypeRowsInGroups(x, t);
  }

  lemma {:induction false} SumOfTypeConcat(a: seq<PnlRow>, b: seq<PnlRow>, t: OptionType)
    ensures SumOfType(a + b, t) == SumOfType(a, t) + SumOfType(b, t)
  {
    if |a| > 0 {
      assert (a + b)[1..] == a[1..] + b;
      SumOfTypeConcat(a[1..], b, t);
    } else {
      assert a + b == b;
    }
  }

  /** A type's rows of the group table add up to that type's selected profit. */
  lemma GroupTableSums(x: seq<ValuedOption>, t: OptionType)
    ensures SumOfType(GroupRows(x), t) == SumProfit(Where(x, TypeIs(t)))
  {
    var h0 := GroupHere(x, 0);
    var h1 := GroupHere(x, 1);
    var h2 := GroupHere(x, 2);
    var h3 := GroupHere(x, 3);
    SumOfTypeConcat(h0 + h1 + h2, h3, t);
    SumOfTypeConcat(h0 + h1, h2, t);
    SumOfTypeConcat(h0, h1, t);
    GroupHereSum(x, 0, t);
    GroupHereSum(x, 1, t);
    GroupHereSum(x, 2, t);
    GroupHereSum(x, 3, t);
    SumSplitsByPos(Where(x, TypeIs(t)));
  }

  /** The row of group key k (0..3), if that group is non-empty. */
  function GroupHere(rows: seq<ValuedOption>, k: nat): (r: seq<PnlRow>)
    requires k < 4
    ensures |r| <= 1
    ensures |r| == 1 <==> |GroupOf(rows, KeyType(k), KeyPos(k))| > 0
    ensures |r| == 1 ==> Rank(r[0]) == k && IsGroupSum(rows, r[0])
    ensures |r| == 1 ==> r[0] == PnlRow(KeyType(k), Group(KeyPos(k)), SumProfit(GroupOf(rows, KeyType(k), KeyPos(k))))
  {
    var g := GroupOf(rows, KeyType(k), KeyPos(k));
    if |g| == 0 then [] else [PnlRow(KeyType(k), Group(KeyPos(k)), SumProfit(g))]
  }

  lemma GroupHereSum(rows: seq<ValuedOption>, k: nat, t: OptionType)
    requires k < 4
    ensures SumOfType(GroupHere(rows, k), t) ==
            if KeyType(k) == t then SumProfit(GroupOf(rows, t, KeyPos(k))) else 0.0
  {
    var g := GroupOf(rows, KeyType(k), KeyPos(k));
    if |g| > 0 {
      var row := PnlRow(KeyType(k), Group(KeyPos(k)), SumProfit(g));
      assert SumOfType([row], t) == (if row.optType == t then row.profit else 0.0) + SumOfType([row][1..], t);
      assert [row][1..] == [];
    }
  }

  /** prepare_pnl fails exactly when the selection has rows of one option
      type only: then there is one total for a two-element label. */
  lemma PreparePnlFails(rows: seq<ValuedOption>, sel: Selection)
    ensures var x := SelectRows(rows, sel);
            PreparePnl(rows, sel).Err? <==> HasRowOfType(x, Call) != HasRowOfType(x, Put)
  {
    var x := SelectRows(rows, sel);
    GroupTableTypes(x, Call);
    GroupTableTypes(x, Put);
  }

  /** An empty selection gives the two untyped "P&L" rows, and only an empty
      selection does. */
  lemma PreparePnlEmpty(rows: seq<ValuedOption>, sel: Selection)
    ensures PreparePnl(rows, sel) == Ok([UntypedTotal, UntypedTotal]) <==> |SelectRows(rows, sel)| == 0
  {
    var x := SelectRows(rows, sel);
    if |x| == 0 {
      assert GroupRows(x) == [] by { EmptyGroupRows(x); }
      FlipUntyped();
    } else if PreparePnl(rows, sel).Ok? {
      PreparePnlOk(rows, sel);
      var agg := GroupRows(x);
      assert Closed(agg)[|agg|] == PnlRow(Call, Total, -SumOfType(agg, Call));
    }
  }

  lemma EmptyGroupRows(x: seq<ValuedOption>)
    requires |x| == 0
    ensures GroupRows(x) == []
  {
    assert forall k :: 0 <= k < 4 ==> GroupOf(x, KeyType(k), KeyPos(k)) == [];
  }

  lemma FlipUntyped()
    ensures FlipTotals([] + [UntypedTotal, UntypedTotal]) == [UntypedTotal, UntypedTotal]
  {
    var u := [UntypedTotal, UntypedTotal];
    assert [] + u == u;
    assert u[1..] == [UntypedTotal];
    assert u[1..][1..] == [];
  }

  /** A non-empty selection puts at least one type into the group table. */
  lemma SelectionHasAType(x: seq<ValuedOption>)
    requires |x| > 0
    ensures HasType(GroupRows(x), Call) || HasType(GroupRows(x), Put)
  {
    var t := x[0].rec.optType;
    assert x[0] in x;
    assert HasRowOfType(x, t);
    GroupTableTypes(x, t);
  }

  lemma {:induction false} FlipConcat(a: seq<PnlRow>, b: seq<PnlRow>)
    ensures FlipTotals(a + b) == FlipTotals(a) + FlipTotals(b)
  {
    if |a| > 0 {
      assert (a + b)[1..] == a[1..] + b;
      FlipConcat(a[1..], b);
    } else {
      assert a + b == b;
    }
  }

  lemma {:induction false} FlipGroupsOnly(agg: seq<PnlRow>)
    requires forall i :: 0 <= i < |agg| ==> IsGroupRow(agg[i])
    ensures FlipTotals(agg) == agg
  {
    if |agg| > 0 {
      FlipGroupsOnly(agg[1..]);
    }
  }

  /** Flipping the totals of a group table followed by its two totals. */
  lemma FlipGroupsThenTotals(agg: seq<PnlRow>, c: real, p: real)
    requires forall i :: 0 <= i < |agg| ==> IsGroupRow(agg[i])
    ensures FlipTotals(agg + [PnlRow(Call, Total, c), PnlRow(Put, Total, p)])
            == agg + [PnlRow(Call, Total, -c), PnlRow(Put, Total, -p)]
  {
    var tail := [PnlRow(Call, Total, c), PnlRow(Put, Total, p)];
    FlipConcat(agg, tail);
    FlipGroupsOnly(agg);
    FlipTwoTotals(c, p);
  }

  lemma FlipTwoTotals(c: real, p: real)
    ensures FlipTotals([PnlRow(Call, Total, c), PnlRow(Put, Total, p)])
            == [PnlRow(Call, Total, -c), PnlRow(Put, Total, -p)]
  {
    var tail := [PnlRow(Call, Total, c), PnlRow(Put, Total, p)];
    assert tail[1..] == [PnlRow(Put, Total, p)];
    assert tail[1..][1..] == [];
    assert FlipTotals(tail[1..]) == [PnlRow(Put, Total, -p)];
  }

  /** A table with both types in its group part has at least two group rows. */
  lemma TwoTypesTwoRows(agg: seq<PnlRow>)
    requires HasType(agg, Call) && HasType(agg, Put)
    ensures |agg| >= 2
  {
    assert HasType(agg[1..], Call) || HasType(agg[1..], Put);
  }

  /** A group table followed by its two negated per-type totals. */
  function Closed(agg: seq<PnlRow>): seq<PnlRow>
  {
    agg + [PnlRow(Call, Total, -SumOfType(agg, Call)), PnlRow(Put, Total, -SumOfType(agg, Put))]
  }

  /** The successful result is the group table followed by the negated totals. */
  lemma PreparePnlOk(rows: seq<ValuedOption>, sel: Selection)
    requires PreparePnl(rows, sel).Ok?
    ensures var x := SelectRows(rows, sel);
            var agg := GroupRows(x);
            |x| > 0 ==> && HasType(agg, Call) && HasType(agg, Put)
                        && PreparePnl(rows, sel) == Ok(Closed(agg))
  {
    var x := SelectRows(rows, sel);
    if |x| > 0 {
      SelectionHasAType(x);
      GroupRowsAreGroups(x);
      WithTotalsOk(GroupRows(x));
    }
  }

  lemma WithTotalsOk(agg: seq<PnlRow>)
    requires |Totals(agg)| == 2
    requires forall i :: 0 <= i < |agg| ==> IsGroupRow(agg[i])
    ensures HasType(agg, Call) && HasType(agg, Put)
    ensures WithTotals(agg) == Ok(Closed(agg))
  {
    TotalsOfBoth(agg);
    WithTotalsUnfold(agg);
    FlipAppendedTotals(agg);
  }

  lemma FlipAppendedTotals(agg: seq<PnlRow>)
    requires |Totals(agg)| == 2
    requires forall i :: 0 <= i < |agg| ==> IsGroupRow(agg[i])
    ensures FlipTotals(agg + Totals(agg)) == Closed(agg)
  {
    AppendTotals(agg);
    FlipGroupsThenTotals(agg, SumOfType(agg, Call), SumOfType(agg, Put));
  }

  lemma WithTotalsUnfold(agg: seq<PnlRow>)
    requires |Totals(agg)| == 2
    ensures WithTotals(agg) == Ok(FlipTotals(agg + Totals(agg)))
  {
  }

  lemma AppendTotals(agg: seq<PnlRow>)
    requires |Totals(agg)| == 2
    ensures agg + Totals(agg)
            == agg + [PnlRow(Call, Total, SumOfType(agg, Call)), PnlRow(Put, Total, SumOfType(agg, Put))]
  {
    TotalsOfBoth(agg);
  }

  lemma TotalsOfBoth(agg: seq<PnlRow>)
    requires |Totals(agg)| == 2
    ensures HasType(agg, Call) && HasType(agg, Put)
    ensures Totals(agg) == [PnlRow(Call, Total, SumOfType(agg, Call)), PnlRow(Put, Total, SumOfType(agg, Put))]
  {
  }

  /** Every row of the group table is the sum of its non-empty group, and the
      rows are strictly in (type, pos) order. */
  lemma GroupRowsAreGroups(x: seq<ValuedOption>)
    ensures forall i :: 0 <= i < |GroupRows(x)| ==>
              IsGroupSum(x, GroupRows(x)[i]) && Rank(GroupRows(x)[i]) < 4
    ensures Ordered(GroupRows(x))
  {
    GroupRowsOrdered(x);
    GroupRowsSums(x);
  }

  lemma GroupRowsOrdered(x: seq<ValuedOption>)
    ensures Ordered(GroupRows(x)) && forall i :: 0 <= i < |GroupRows(x)| ==> Rank(GroupRows(x)[i]) < 4
  {
    FourRanked(GroupHere(x, 0), GroupHere(x, 1), GroupHere(x, 2), GroupHere(x, 3));
  }

  /** Four slots of at most one row each, slot k holding rank k, are in order. */
  lemma FourRanked(h0: seq<PnlRow>, h1: seq<PnlRow>, h2: seq<PnlRow>, h3: seq<PnlRow>)
    requires |h0| <= 1 && (|h0| == 1 ==> Rank(h0[0]) == 0)
    requires |h1| <= 1 && (|h1| == 1 ==> Rank(h1[0]) == 1)
    requires |h2| <= 1 && (|h2| == 1 ==> Rank(h2[0]) == 2)
    requires |h3| <= 1 && (|h3| == 1 ==> Rank(h3[0]) == 3)
    ensures var r := h0 + h1 + h2 + h3;
            Ordered(r) && forall i :: 0 <= i < |r| ==> Rank(r[i]) < 4
  {
    AppendRanked([], h0, 0);
    assert [] + h0 == h0;
    AppendRanked(h0, h1, 1);
    AppendRanked(h0 + h1, h2, 2);
    AppendRanked(h0 + h1 + h2, h3, 3);
  }

  lemma GroupRowsSums(x: seq<ValuedOption>)
    ensures forall v :: v in GroupRows(x) ==> IsGroupSum(x, v)
  {
    var h0, h1, h2, h3 := GroupHere(x, 0), GroupHere(x, 1), GroupHere(x, 2), GroupHere(x, 3);
    forall v | v in GroupRows(x)
      ensures IsGroupSum(x, v)
    {
      if v in h0 {
        assert v == h0[0];
      } else if v in h1 {
        assert v == h1[0];
      } else if v in h2 {
        assert v == h2[0];
      } else {
        assert v in h3;
        assert v == h3[0];
      }
    }
  }

  /** Closing an ordered group table keeps it strictly ordered by rank,
      with the group rows first and the CALL then PUT totals last. */
  lemma ClosedShape(agg: seq<PnlRow>)
    requires Ordered(agg)
    requires forall i :: 0 <= i < |agg| ==> Rank(agg[i]) < 4
    ensures var r := Closed(agg);
            && |r| == |agg| + 2
            && (forall i :: 0 <= i < |agg| ==> r[i] == agg[i])
            && r[|r| - 2] == PnlRow(Call, Total, -SumOfType(agg, Call))
            && r[|r| - 1] == PnlRow(Put, Total, -SumOfType(agg, Put))
            && Ordered(r)
  {
  }

  /** In a closed table each type's rows add to zero. */
  lemma ClosedBalances(agg: seq<PnlRow>)
    ensures SumOfType(Closed(agg), Call) == 0.0 && SumOfType(Closed(agg), Put) == 0.0
  {
    var tail := [PnlRow(Call, Total, -SumOfType(agg, Call)), PnlRow(Put, Total, -SumOfType(agg, Put))];
    SumOfTypeConcat(agg, tail, Call);
    SumOfTypeConcat(agg, tail, Put);
    assert tail[1..] == [tail[1]];
    assert tail[1..][1..] == [];
    assert SumOfType(tail[1..], Call) == 0.0;
    assert SumOfType(tail[1..], Put) == -SumOfType(agg, Put);
    assert SumOfType(tail, Call) == -SumOfType(agg, Call);
    assert SumOfType(tail, Put) == -SumOfType(agg, Put);
  }

  /** The shape and values of a successful P&L table: rows strictly ordered
      by (type, pos) groups then the CALL and PUT totals; each group row the
      holder-sign sum of its non-empty group; each total the negated sum of
      that type's selected profit. */
  lemma PreparePnlTable(rows: seq<ValuedOption>, sel: Selection)
    requires PreparePnl(rows, sel).Ok?
    ensures var x := SelectRows(rows, sel);
            var r := PreparePnl(rows, sel).value;
            |x| == 0 ==> r == [UntypedTotal, UntypedTotal]
    ensures var x := SelectRows(rows, sel);
            var r := PreparePnl(rows, sel).value;
            |x| > 0 ==>
              && |r| >= 4
              && Ordered(r)
              && r[|r| - 2] == PnlRow(Call, Total, -SumProfit(Where(x, TypeIs(Call))))
              && r[|r| - 1] == PnlRow(Put, Total, -SumProfit(Where(x, TypeIs(Put))))
              && (forall i :: 0 <= i < |r| - 2 ==> IsGroupSum(x, r[i]))
  {
    PreparePnlEmpty(rows, sel);
    if |SelectRows(rows, sel)| > 0 {
      PreparePnlTableOfRows(rows, sel);
    }
  }

  lemma PreparePnlTableOfRows(rows: seq<ValuedOption>, sel: Selection)
    requires PreparePnl(rows, sel).Ok? && |SelectRows(rows, sel)| > 0
    ensures var x := SelectRows(rows, sel);
            var r := PreparePnl(rows, sel).value;
            && |r| >= 4
            && Ordered(r)
            && r[|r| - 2] == PnlRow(Call, Total, -SumProfit(Where(x, TypeIs(Call))))
            && r[|r| - 1] == PnlRow(Put, Total, -SumProfit(Where(x, TypeIs(Put))))
            && (forall i :: 0 <= i < |r| - 2 ==> IsGroupSum(x, r[i]))
  {
    var x := SelectRows(rows, sel);
    var agg := GroupRows(x);
    PreparePnlOk(rows, sel);
    TwoTypesTwoRows(agg);
    GroupRowsAreGroups(x);
    GroupTableSums(x, Call);
    GroupTableSums(x, Put);
    ClosedTable(x, agg);
  }

  /** A closed group table of at least two rows: ordered, group sums first,
      then the two negated per-type totals. */
  lemma ClosedTable(x: seq<ValuedOption>, agg: seq<PnlRow>)
    requires |agg| >= 2 && Ordered(agg)
    requires forall i :: 0 <= i < |agg| ==> IsGroupSum(x, agg[i]) && Rank(agg[i]) < 4
    ensures var r := Closed(agg);
            && |r| >= 4
            && Ordered(r)
            && r[|r| - 2] == PnlRow(Call, Total, -SumOfType(agg, Call))
            && r[|r| - 1] == PnlRow(Put, Total, -SumOfType(agg, Put))
            && (forall i :: 0 <= i < |r| - 2 ==> IsGroupSum(x, r[i]))
  {
    ClosedShape(agg);
  }

  /** The pool mirrors the holders: for each type, the rows of a P&L table add to zero. */
  lemma PnlTableBalances(rows: seq<ValuedOption>, sel: Selection)
    requires PreparePnl(rows, sel).Ok?
    ensures var r := PreparePnl(rows, sel).value;
            SumOfType(r, Call) == 0.0 && SumOfType(r, Put) == 0.0
  {
    var x := SelectRows(rows, sel);
    if |x| > 0 {
      PreparePnlOk(rows, sel);
      ClosedBalances(GroupRows(x));
    } else {
      PreparePnlEmpty(rows, sel);
      UntypedSumsZero();
    }
  }

  /** Rows with a missing type belong to neither type's sum. */
  lemma UntypedSumsZero()
    ensures SumOfType([UntypedTotal, UntypedTotal], Call) == 0.0
    ensures SumOfType([UntypedTotal, UntypedTotal], Put) == 0.0
  {
    var u := [UntypedTotal, UntypedTotal];
    assert u[1..] == [UntypedTotal];
    assert u[1..][1..] == [];
  }
}

=== FILE: common.dfy ===
/** Shared vocabulary: optional values, failures, and sums over sequences. */
module Common {

  /** A value that may be missing. In the analytics tables a missing value
      stands for a pandas NaN (or any non-finite float). */
  datatype Option<+T> = None | Some(value: T)

  /** The ways a pipeline step raises instead of returning. */
  datatype Failure =
    | NothingToConcatenate   // pd.concat of an empty list
    | LengthMismatch         // assigning a list of the wrong length to a column
    | ZeroDivision           // Python true division by zero
    | UnknownSymbol          // a symbol outside WBTC / ETH
    | EmptyArgmax            // idxmax of an empty column
    | BadQuantile            // a quantile outside [0, 1]
    | MissingColumn          // selecting a column the frame does not have

  datatype Result<+T> = Ok(value: T) | Err(error: Failure)

  function Abs(x: int): (r: nat)
    ensures r == x || r == -x
  {
    if x < 0 then -x else x
  }

  /** Value of a possibly missing number when summed by pandas (NaN skipped). */
  function OrZero(x: Option<real>): real
  {
    if x.Some? then x.value else 0.0
  }

  /** Concatenate a sequence of pages. */
  function Flatten<T>(pages: seq<seq<T>>): (r: seq<T>)
    ensures |r| == TotalLength(pages)
  {
    if |pages| == 0 then [] else pages[0] + Flatten(pages[1..])
  }

  function TotalLength<T>(pages: seq<seq<T>>): nat
  {
    if |pages| == 0 then 0 else |pages[0]| + TotalLength(pages[1..])
  }
}

=== FILE: events.dfy ===
/** The event fetcher: fail-open pagination over the indexing service and the
    normalisation of raw option events into the option table. */
module Events {
  import opened Common
  import opened Records

  /** Rows requested per page; the skip cursor advances by this much. */
  const PageSize: nat := 100

  /** The reply to one page request. `Raised` is any exception while querying
      (non-200 status, network or decoding error); `Body(None)` is a JSON
      object without a "data" key; otherwise `data` maps entity names to the
      rows of that page. */
  /** The entities that have a query text; `loop_over_pages` looks the
      entity up in this table before sending any request. */
  predicate HasQuery(content: string)
  {
    || content == "options"
    || content == "poolBalances"
    || content == "poolBalances_latest_WBTC"
    || content == "poolBalances_latest_ETH"
    || content == "bondingCurveEvents"
  }

  datatype Response<R> = Raised | Body(data: Option<map<string, seq<R>>>)

  /** Does this reply end the page loop for entity `content`? */
  predicate Stops<R>(reply: Response<R>, content: string)
  {
    || reply.Raised?
    || reply.data.None?
    || content !in reply.data.value
    || |reply.data.value[content]| == 0
  }

  /** The pages the loop keeps when `replies[k]` answers the k-th request:
      the non-empty pages before the first stopping reply, in request order. */
  function Pages<R>(replies: seq<Response<R>>, content: string): (r: seq<seq<R>>)
    ensures |r| <= |replies|
    ensures forall k :: 0 <= k < |r| ==>
              !Stops(replies[k], content) && r[k] == replies[k].data.value[content]
    ensures |r| < |replies| ==> Stops(replies[|r|], content)
  {
    if |replies| == 0 || Stops(replies[0], content) then []
    else [replies[0].data.value[content]] + Pages(replies[1..], content)
  }

  /** The page loop itself. `replies[k]` is what the service answers to the
      k-th request; `skips` records the skip value each request carried.
      The loop only ends on a stopping reply, so one must exist, and the
      entity must have a query text. */
  method LoopOverPages<R>(content: string, replies: seq<Response<R>>)
    returns (data: seq<seq<R>>, skips: seq<nat>)
    requires HasQuery(content)
    requires exists k :: 0 <= k < |replies| && Stops(replies[k], content)
    ensures |skips| == |data| + 1 <= |replies|
    ensures forall k :: 0 <= k < |skips| ==> skips[k] == PageSize * k
    ensures forall k :: 0 <= k < |data| ==>
              !Stops(replies[k], content) && data[k] == replies[k].data.value[content]
    ensures forall k :: 0 <= k < |data| ==> |data[k]| > 0
    ensures Stops(replies[|data|], content)
    ensures data == Pages(replies, content)
  {
    data := [];
    skips := [];
    var skip: nat := 0;
    while true
      invariant |data| < |replies|
      invariant |skips| == |data|
      invariant skip == PageSize * |data|
      invariant forall k :: 0 <= k < |skips| ==> skips[k] == PageSize * k
      invariant forall k :: 0 <= k < |data| ==>
                  !Stops(replies[k], content) && data[k] == replies[k].data.value[content]
      decreases |replies| - |data|
    {
      skips := skips + [skip];
      var reply := replies[|data|];
      if reply.Raised? {
        break;
      }
      if reply.data.None? {
        break;
      }
      var body := reply.data.value;
      if content !in body {
        break;
      }
      var sample := body[content];
      if |sample| > 0 {
        data := data + [sample];
      } else {
        break;
      }
      skip := skip + PageSize;
    }
    PagesUnique(replies, content, data);
  }

  /** The loop's result is determined: any prefix-of-continuing-pages that ends
      at a stopping reply is exactly `Pages`. */
  lemma {:induction false} PagesUnique<R>(replies: seq<Response<R>>, content: string, data: seq<seq<R>>)
    requires |data| < |replies|
    requires forall k :: 0 <= k < |data| ==>
               !Stops(replies[k], content) && data[k] == replies[k].data.value[content]
    requires Stops(replies[|data|], content)
    ensures data == Pages(replies, content)
  {
    var p := Pages(replies, content);
    assert |p| == |data|;
  }

  /** The seconds-to-days table of the period column; any other value is missing. */
  function PeriodDays(seconds: int): (r: Option<int>)
    ensures r.Some? <==> seconds in {86400, 604800, 1209600, 1814400, 2419200}
    ensures r.Some? ==> r.value * 86400 == seconds
  {
    match seconds
    case 86400 => Some(1)
    case 604800 => Some(7)
    case 1209600 => Some(14)
    case 1814400 => Some(21)
    case 2419200 => Some(28)
    case _ => None
  }

  /** The period map inverts the day count: a period of d whole days maps
      back to d exactly for the five offered durations. */
  lemma PeriodDaysRoundTrip(d: int)
    ensures PeriodDays(d * 86400) == if d in {1, 7, 14, 21, 28} then Some(d) else None
  {
  }

  /** An option event as the indexing service reports it, numbers already
      parsed. `period` is in seconds. */
  datatype RawOption = RawOption(
    id: string,
    account: string,
    symbol: string,
    status: Status,
    strike: real,
    amount: real,
    premium: real,
    settlementFee: real,
    totalFee: real,
    optType: OptionType,
    period: int,
    timestamp: int,
    expiration: int,
    profit: Option<real>)

  /** Normalise one raw option event into a row of the option table. */
  function Normalize(raw: RawOption): (r: OptionRecord)
    ensures r.timestampUnix == raw.timestamp
    ensures r.periodDays.Some? ==> r.periodDays.value * 86400 == raw.period
    ensures r.periodDays.None? <==> raw.period !in {86400, 604800, 1209600, 1814400, 2419200}
    ensures r.id == raw.id && r.status == raw.status && r.strike == raw.strike
    ensures r.amount == raw.amount && r.profit == raw.profit && r.optType == raw.optType
    ensures r.symbol == raw.symbol && r.account == raw.account && r.premium == raw.premium
    ensures r.settlementFee == raw.settlementFee && r.totalFee == raw.totalFee
    ensures r.expiration == raw.expiration
  {
    OptionRecord(raw.id, raw.account, raw.symbol, raw.status, raw.strike, raw.amount,
                 raw.premium, raw.settlementFee, raw.totalFee, raw.optType,
                 PeriodDays(raw.period), raw.timestamp, raw.expiration, raw.profit)
  }

  function NormalizeAll(raws: seq<RawOption>): (r: seq<OptionRecord>)
    ensures |r| == |raws|
    ensures forall i :: 0 <= i < |raws| ==> r[i] == Normalize(raws[i])
  {
    seq(|raws|, i requires 0 <= i < |raws| => Normalize(raws[i]))
  }

  /** The options branch of get_data applied to the pages the loop returned:
      concatenation fails on no pages, otherwise one row per fetched event. */
  function GetData(pages: seq<seq<RawOption>>): (r: Result<seq<OptionRecord>>)
    ensures r.Err? <==> |pages| == 0
    ensures r.Err? ==> r.error == NothingToConcatenate
    ensures r.Ok? ==> |r.value| == TotalLength(pages)
    ensures r.Ok? ==> forall i :: 0 <= i < |r.value| ==>
              r.value[i] == Normalize(Flatten(pages)[i])
  {
    if |pages| == 0 then Err(NothingToConcatenate)
    else Ok(NormalizeAll(Flatten(pages)))
  }

  /** Fetching the option table end to end: the loop followed by get_data. */
  lemma {:induction false} FetchOptions(replies: seq<Response<RawOption>>)
    requires exists k :: 0 <= k < |replies| && Stops(replies[k], "options")
    ensures var r := GetData(Pages(replies, "options"));
            && (r.Err? <==> Stops(replies[0], "options"))
            && (r.Ok? ==> |r.value| == TotalLength(Pages(replies, "options")) > 0)
  {
    var p := Pages(replies, "options");
    if !Stops(replies[0], "options") {
      assert |p| > 0;
      assert |p[0]| > 0;
      assert TotalLength(p) >= |p[0]|;
    } else {
      assert |p| == 0;
    }
  }
}

=== FILE: records.dfy ===
/** The option table: one record per option contract, as normalised from the
    indexing service, and the valued record the valuation step produces. */
module Records {
  import opened Common

  datatype OptionType = Call | Put

  /** The two underlyings the pools and price lookups know. */
  predicate KnownSymbol(symbol: string)
  {
    symbol == "WBTC" || symbol == "ETH"
  }

  datatype Status = Active | Expired | Exercised

  /** Moneyness label of a valued row ("ITM" / "OTM"). */
  datatype Pos = ITM | OTM

  /** One option contract. Monetary amounts are reals (the source's float64
      columns); `profit` is missing until the option is settled.
      `timestampUnix` is the creation time in unix seconds. */
  datatype OptionRecord = OptionRecord(
    id: string,
    account: string,
    symbol: string,
    status: Status,
    strike: real,
    amount: real,
    premium: real,
    settlementFee: real,
    totalFee: real,
    optType: OptionType,
    periodDays: Option<int>,
    timestampUnix: int,
    expiration: int,
    profit: Option<real>)

  /** A record after valuation: `rec.profit` is the authoritative profit,
      `breakeven` the merged break-even column, `pos` the moneyness label. */
  datatype ValuedOption = ValuedOption(rec: OptionRecord, breakeven: Option<real>, pos: Pos)
}

=== FILE: risk.dfy ===
/** The pool-writer risk calculator: the snapshot of tradable active options,
    the second-order P&L approximation, and the user's share of the pool's
    negated greeks. Spot prices, write-token balances and the per-option
    Black-Scholes greeks are inputs. */
module Risk {
  import opened Common
  import opened Records
  import opened Events

  /** Seconds in a day, the divisor of the days-to-expiry column. */
  const SecondsPerDay: real := 86400.0

  /** An active option as the calculator queries it. `expiration` is in
      unix seconds. */
  datatype ActiveOption = ActiveOption(
    symbol: string,
    status: Status,
    strike: real,
    amount: real,
    expiration: int,
    optType: OptionType,
    account: string)

  /** An option of the snapshot with its remaining life in (fractional) days. */
  datatype Position = Position(opt: ActiveOption, daysToExpiry: real)

  /** Remaining life in days at wall-clock time `now` (unix seconds). */
  function DaysToExpiry(expiration: int, now: real): (d: real)
    ensures d * SecondsPerDay == expiration as real - now
    ensures d > 0.0 <==> expiration as real > now
  {
    (expiration as real - now) / SecondsPerDay
  }

  /** The snapshot keeps an option only while it has life left and a positive strike. */
  predicate Tradable(p: Position)
  {
    p.daysToExpiry > 0.0 && p.opt.strike > 0.0
  }

  function Stamp(opts: seq<ActiveOption>, now: real): (r: seq<Position>)
    ensures |r| == |opts|
    ensures forall i :: 0 <= i < |opts| ==>
              r[i] == Position(opts[i], DaysToExpiry(opts[i].expiration, now))
  {
    seq(|opts|, i requires 0 <= i < |opts| => Position(opts[i], DaysToExpiry(opts[i].expiration, now)))
  }

  /** The boolean-mask row filter, keeping row order. */
  function KeepTradable(ps: seq<Position>): (r: seq<Position>)
    ensures |r| <= |ps|
    ensures forall i :: 0 <= i < |r| ==> Tradable(r[i])
  {
    if |ps| == 0 then []
    else (if Tradable(ps[0]) then [ps[0]] else []) + KeepTradable(ps[1..])
  }

  /** The filter drops exactly the untradable rows. */
  lemma {:induction false} KeepTradableMembers(ps: seq<Position>)
    ensures forall p :: p in KeepTradable(ps) <==> p in ps && Tradable(p)
  {
    if |ps| > 0 {
      KeepTradableMembers(ps[1..]);
      assert ps == [ps[0]] + ps[1..];
    }
  }

  /** Refreshing the snapshot from the pages the loop returned: concatenation
      fails on no pages; otherwise every fetched option is stamped with its
      days to expiry and the untradable ones are dropped. */
  function GetNewData(pages: seq<seq<ActiveOption>>, now: real): (r: Result<seq<Position>>)
    ensures r.Err? <==> |pages| == 0
    ensures r.Err? ==> r.error == NothingToConcatenate
    ensures r.Ok? ==> forall i :: 0 <= i < |r.value| ==>
              r.value[i].daysToExpiry > 0.0 && r.value[i].opt.strike > 0.0
  {
    if |pages| == 0 then Err(NothingToConcatenate)
    else Ok(KeepTradable(Stamp(Flatten(pages), now)))
  }

  /** The snapshot holds exactly the fetched options that expire after `now`
      and have a positive strike, each with its days to expiry. */
  lemma GetNewDataRows(pages: seq<seq<ActiveOption>>, now: real)
    requires |pages| > 0
    ensures forall p :: p in GetNewData(pages, now).value <==>
              && p.opt in Flatten(pages)
              && p.daysToExpiry == DaysToExpiry(p.opt.expiration, now)
              && p.opt.expiration as real > now
              && p.opt.strike > 0.0
  {
    var opts := Flatten(pages);
    var stamped := Stamp(opts, now);
    KeepTradableMembers(stamped);
    forall p: Position | p.opt in opts && p.daysToExpiry == DaysToExpiry(p.opt.expiration, now)
      ensures p in stamped
    {
      var i :| 0 <= i < |opts| && opts[i] == p.opt;
      assert stamped[i] == p;
    }
  }

  /** The calculator's own page loop over active options. It is a copy of
      the fetcher's loop with the entity fixed to "options", so it requests
      the same skips and keeps the same pages. */
  method LoopOverActivePages(replies: seq<Response<ActiveOption>>)
    returns (data: seq<seq<ActiveOption>>, skips: seq<nat>)
    requires exists k :: 0 <= k < |replies| && Stops(replies[k], "options")
    ensures |skips| == |data| + 1 <= |replies|
    ensures forall k :: 0 <= k < |skips| ==> skips[k] == PageSize * k
    ensures forall k :: 0 <= k < |data| ==> |data[k]| > 0
    ensures Stops(replies[|data|], "options")
    ensures data == Pages(replies, "options")
  {
    data, skips := LoopOverPages("options", replies);
  }

  // ---------------------------------------------------------------------------
  // P&L approximation
  // ---------------------------------------------------------------------------

  /** Second-order P&L of a book with the given greeks when the underlying
      moves by `price` and `expiry` days pass. */
  function Pnl(price: real, expiry: real, delta: real, gamma: real, theta: real): (r: real)
    ensures price == 0.0 ==> r == theta * expiry
    ensures expiry == 0.0 ==> r == price * (delta + 0.5 * gamma * price)
    ensures price == 0.0 && expiry == 0.0 ==> r == 0.0
  {
    delta * price + 0.5 * gamma * price * price + theta * expiry
  }

  /** The approximation is linear in the greeks: scaling every greek by `k`
      scales the P&L by `k`. */
  lemma PnlScales(price: real, expiry: real, delta: real, gamma: real, theta: real, k: real)
    ensures Pnl(price, expiry, k * delta, k * gamma, k * theta) == k * Pnl(price, expiry, delta, gamma, theta)
  {
    assert (k * delta) * price == k * (delta * price);
    assert 0.5 * (k * gamma) * price * price == k * (0.5 * gamma * price * price);
    assert (k * theta) * expiry == k * (theta * expiry);
  }

  // ---------------------------------------------------------------------------
  // The calculator
  // ---------------------------------------------------------------------------

  datatype Greeks = Greeks(delta: real, gamma: real, theta: real)

  /** A snapshot row with the greeks of its whole position. */
  datatype PricedPosition = PricedPosition(position: Position, greeks: Greeks)

  /** What each refresh caches: spot prices and total write-token supplies. */
  datatype Market = Market(priceWbtc: real, priceEth: real, supplyWbtc: nat, supplyEth: nat)

  /** The user's staked and write-token balances on both pools. */
  datatype Wallet = Wallet(stakedWbtc: nat, writeWbtc: nat, stakedEth: nat, writeEth: nat)

  /** The quote the calculator returns. */
  datatype Quote = Quote(coin: string, price: real, day: int, pnl: real)

  function Spot(market: Market, symbol: string): real
  {
    if symbol == "WBTC" then market.priceWbtc else market.priceEth
  }

  function Supply(market: Market, symbol: string): nat
  {
    if symbol == "WBTC" then market.supplyWbtc else market.supplyEth
  }

  /** The user's write-token holding on a pool: staked plus unstaked. */
  function Held(wallet: Wallet, symbol: string): nat
  {
    if symbol == "WBTC" then wallet.stakedWbtc + wallet.writeWbtc
    else wallet.stakedEth + wallet.writeEth
  }

  /** The sum of one symbol's greeks over the snapshot. */
  function PoolGreeks(book: seq<PricedPosition>, symbol: string): Greeks
  {
    if |book| == 0 then Greeks(0.0, 0.0, 0.0)
    else
      var g := PoolGreeks(book[1..], symbol);
      if book[0].position.opt.symbol == symbol then
        Greeks(book[0].greeks.delta + g.delta, book[0].greeks.gamma + g.gamma, book[0].greeks.theta + g.theta)
      else g
  }

  /** Pool greeks add over a split of the snapshot. */
  lemma {:induction false} PoolGreeksConcat(a: seq<PricedPosition>, b: seq<PricedPosition>, symbol: string)
    ensures var (ga, gb, g) := (PoolGreeks(a, symbol), PoolGreeks(b, symbol), PoolGreeks(a + b, symbol));
            g == Greeks(ga.delta + gb.delta, ga.gamma + gb.gamma, ga.theta + gb.theta)
  {
    if |a| > 0 {
      assert (a + b)[1..] == a[1..] + b;
      PoolGreeksConcat(a[1..], b, symbol);
    } else {
      assert a + b == b;
    }
  }

  /** Rows of other symbols do not move a symbol's pool greeks. */
  lemma {:induction false} PoolGreeksOtherSymbols(book: seq<PricedPosition>, symbol: string)
    requires forall i :: 0 <= i < |book| ==> book[i].position.opt.symbol != symbol
    ensures PoolGreeks(book, symbol) == Greeks(0.0, 0.0, 0.0)
  {
    if |book| > 0 {
      PoolGreeksOtherSymbols(book[1..], symbol);
    }
  }

  /** The user's fraction of a pool. Python true division raises on a zero supply. */
  function UserShare(held: nat, supply: nat): (r: Result<real>)
    ensures r.Err? <==> supply == 0
    ensures r.Err? ==> r.error == ZeroDivision
    ensures r.Ok? ==> r.value * supply as real == held as real && r.value >= 0.0
  {
    if supply == 0 then Err(ZeroDivision) else Ok(held as real / supply as real)
  }

  /** The user's greeks: the pool's greeks negated (the writer holds the
      other side) and scaled by the user's share. */
  function UserGreeks(pool: Greeks, share: real): Greeks
  {
    Greeks(pool.delta * -1.0 * share, pool.gamma * -1.0 * share, pool.theta * -1.0 * share)
  }

  /** The calculator: the user's P&L if the underlying moves to `price` and
      `day` days pass. An unknown symbol or an empty pool raises; so does an
      empty snapshot, whose frame never received the greek columns. */
  function TriggerCalculator(book: seq<PricedPosition>, market: Market, wallet: Wallet,
                             symbol: string, price: real, day: int): (r: Result<Quote>)
    ensures r.Err? <==> !KnownSymbol(symbol) || Supply(market, symbol) == 0 || |book| == 0
    ensures r.Err? && !KnownSymbol(symbol) ==> r.error == UnknownSymbol
    ensures r.Err? && KnownSymbol(symbol) && Supply(market, symbol) == 0 ==> r.error == ZeroDivision
    ensures r.Err? && KnownSymbol(symbol) && Supply(market, symbol) > 0 ==> r.error == MissingColumn
    ensures r.Ok? ==> r.value.coin == symbol && r.value.price == price && r.value.day == day
    ensures r.Ok? && price == Spot(market, symbol) && day == 0 ==> r.value.pnl == 0.0
    ensures r.Ok? && Held(wallet, symbol) == 0 ==> r.value.pnl == 0.0
  {
    if !KnownSymbol(symbol) then Err(UnknownSymbol)
    else
      match UserShare(Held(wallet, symbol), Supply(market, symbol))
      case Err(e) => Err(e)
      case Ok(share) =>
        if |book| == 0 then Err(MissingColumn)
        else Ok(Quote(symbol, price, day, UserPnl(PoolGreeks(book, symbol), share, price - Spot(market, symbol), day as real)))
  }

  /** The P&L of the user's greeks for a price move and a number of days. */
  function UserPnl(pool: Greeks, share: real, move: real, days: real): real
  {
    var u := UserGreeks(pool, share);
    Pnl(move, days, u.delta, u.gamma, u.theta)
  }

  /** The user's P&L is the pool's greek P&L, negated and scaled by the share. */
  lemma UserPnlIsShare(pool: Greeks, share: real, move: real, days: real)
    ensures UserPnl(pool, share, move, days) == -share * Pnl(move, days, pool.delta, pool.gamma, pool.theta)
  {
    UserGreeksScale(pool, share);
    PnlScales(move, days, pool.delta, pool.gamma, pool.theta, -share);
  }

  /** The user carries their share of the pool's P&L with the sign flipped:
      the quoted P&L is minus the user's share times the P&L of the pool's
      summed greeks. */
  lemma TriggerCalculatorShare(book: seq<PricedPosition>, market: Market, wallet: Wallet,
                               symbol: string, price: real, day: int)
    requires TriggerCalculator(book, market, wallet, symbol, price, day).Ok?
    ensures var g := PoolGreeks(book, symbol);
            var share := UserShare(Held(wallet, symbol), Supply(market, symbol)).value;
            TriggerCalculator(book, market, wallet, symbol, price, day).value.pnl
            == -share * Pnl(price - Spot(market, symbol), day as real, g.delta, g.gamma, g.theta)
  {
    var g := PoolGreeks(book, symbol);
    var share := UserShare(Held(wallet, symbol), Supply(market, symbol)).value;
    var move, days := price - Spot(market, symbol), day as real;
    var q := TriggerCalculator(book, market, wallet, symbol, price, day).value.pnl;
    TriggerCalculatorPnl(book, market, wallet, symbol, price, day);
    assert q == UserPnl(g, share, move, days);
    UserPnlIsShare(g, share, move, days);
  }

  /** The quoted P&L is the P&L of the user's greeks. */
  lemma TriggerCalculatorPnl(book: seq<PricedPosition>, market: Market, wallet: Wallet,
                             symbol: string, price: real, day: int)
    requires TriggerCalculator(book, market, wallet, symbol, price, day).Ok?
    ensures TriggerCalculator(book, market, wallet, symbol, price, day).value.pnl
            == UserPnl(PoolGreeks(book, symbol), UserShare(Held(wallet, symbol), Supply(market, symbol)).value,
                       price - Spot(market, symbol), day as real)
  {
    var share := UserShare(Held(wallet, symbol), Supply(market, symbol)).value;
    assert TriggerCalculator(book, market, wallet, symbol, price, day)
           == Ok(Quote(symbol, price, day, UserPnl(PoolGreeks(book, symbol), share, price - Spot(market, symbol), day as real)));
  }

  lemma UserGreeksScale(pool: Greeks, share: real)
    ensures UserGreeks(pool, share) == Greeks(-share * pool.delta, -share * pool.gamma, -share * pool.theta)
  {
  }
}

=== FILE: valuation.dfy ===
/** The valuation engine of get_projected_profit: nearest-time price join,
    break-even price, projected profit of ACTIVE options, the left merge back
    onto the option table and the ITM/OTM label. */
module Valuation {
  import opened Common
  import opened Records

  // ---------------------------------------------------------------------------
  // Historical prices and the nearest-time join
  // ---------------------------------------------------------------------------

  /** One historical price of an underlying, time in unix seconds. */
  datatype PricePoint = PricePoint(symbol: string, ts: int, price: real)

  /** Price-index times come in milliseconds; floor division by 1000. */
  function ToSeconds(ms: int): (s: int)
    ensures s * 1000 <= ms < s * 1000 + 1000
  {
    ms / 1000
  }

  function Label(series: seq<(int, real)>, symbol: string): (r: seq<PricePoint>)
    ensures |r| == |series|
    ensures forall i :: 0 <= i < |series| ==>
              r[i].symbol == symbol && r[i].price == series[i].1 &&
              r[i].ts * 1000 <= series[i].0 < r[i].ts * 1000 + 1000
  {
    seq(|series|, i requires 0 <= i < |series| =>
      PricePoint(symbol, ToSeconds(series[i].0), series[i].1))
  }

  /** The joined price table: bitcoin (timestamp-ms, price) pairs labelled
      WBTC followed by ether pairs labelled ETH, times in seconds. */
  function PriceTable(btc: seq<(int, real)>, eth: seq<(int, real)>): (r: seq<PricePoint>)
    ensures |r| == |btc| + |eth|
    ensures forall i :: 0 <= i < |r| ==> r[i].symbol in {"WBTC", "ETH"}
    ensures forall i :: 0 <= i < |btc| ==> r[i] == PricePoint("WBTC", ToSeconds(btc[i].0), btc[i].1)
    ensures forall i :: 0 <= i < |eth| ==> r[|btc| + i] == PricePoint("ETH", ToSeconds(eth[i].0), eth[i].1)
  {
    Label(btc, "WBTC") + Label(eth, "ETH")
  }

  function Dist(p: PricePoint, t: int): nat
  {
    Abs(p.ts - t)
  }

  /** `p` is a strictly better match than `q` for time `t`: nearer, or
      equally near and earlier (a tie goes to the earlier point). */
  predicate Nearer(p: PricePoint, q: PricePoint, t: int)
  {
    Dist(p, t) < Dist(q, t) || (Dist(p, t) == Dist(q, t) && p.ts < q.ts)
  }

  /** Index of the nearest point of `symbol` among the first `n` points:
      minimal distance, the earlier point on a tie, the first such in the
      sequence among points with the same time. */
  function NearestIn(pts: seq<PricePoint>, symbol: string, t: int, n: nat): (r: Option<nat>)
    requires n <= |pts|
    ensures r.None? <==> forall j :: 0 <= j < n ==> pts[j].symbol != symbol
    ensures r.Some? ==> r.value < n && pts[r.value].symbol == symbol
    ensures r.Some? ==> forall j :: 0 <= j < n && pts[j].symbol == symbol ==>
              Dist(pts[r.value], t) <= Dist(pts[j], t)
    ensures r.Some? ==> forall j :: 0 <= j < n && pts[j].symbol == symbol ==>
              !Nearer(pts[j], pts[r.value], t)
    ensures r.Some? ==> forall j :: 0 <= j < r.value && pts[j].symbol == symbol ==>
              Nearer(pts[r.value], pts[j], t)
  {
    if n == 0 then None
    else
      var r := NearestIn(pts, symbol, t, n - 1);
      if pts[n - 1].symbol != symbol then r
      else if r.None? || Nearer(pts[n - 1], pts[r.value], t) then Some(n - 1)
      else r
  }

  function Nearest(pts: seq<PricePoint>, symbol: string, t: int): (r: Option<nat>)
    ensures r.Some? ==> r.value < |pts|
  {
    NearestIn(pts, symbol, t, |pts|)
  }

  /** `pts[j]` is a point of `symbol` at least as near to `t` as any other. */
  predicate IsNearest(pts: seq<PricePoint>, symbol: string, t: int, j: nat)
    requires j < |pts|
  {
    && pts[j].symbol == symbol
    && forall k :: 0 <= k < |pts| && pts[k].symbol == symbol ==> Dist(pts[j], t) <= Dist(pts[k], t)
  }

  /** The price at creation: the price of the nearest point, if any. */
  function PriceAt(pts: seq<PricePoint>, symbol: string, t: int): (r: Option<real>)
    ensures r.None? <==> forall j :: 0 <= j < |pts| ==> pts[j].symbol != symbol
    ensures r.Some? ==> exists j :: 0 <= j < |pts| && IsNearest(pts, symbol, t, j) && pts[j].price == r.value
  {
    var i := Nearest(pts, symbol, t);
    if i.Some? then Some(pts[i.value].price) else None
  }

  /** The nearest-time example: points at 100 (price 10) and 200 (price 20). */
  lemma NearestExample()
    ensures var pts := [PricePoint("ETH", 100, 10.0), PricePoint("ETH", 200, 20.0)];
            && PriceAt(pts, "ETH", 140) == Some(10.0)
            && PriceAt(pts, "ETH", 160) == Some(20.0)
            && PriceAt(pts, "ETH", 150) == Some(10.0)
            && PriceAt(pts, "WBTC", 150) == None
  {
    var pts := [PricePoint("ETH", 100, 10.0), PricePoint("ETH", 200, 20.0)];
    assert NearestIn(pts, "ETH", 140, 1) == Some(0);
    assert NearestIn(pts, "ETH", 160, 1) == Some(0);
    assert NearestIn(pts, "ETH", 150, 1) == Some(0);
  }

  // ---------------------------------------------------------------------------
  // Break-even and projected profit
  // ---------------------------------------------------------------------------

  /** Break-even price: the strike moved by the total fee (in USD at the
      creation price) per unit of amount, up for a CALL and down for a PUT.
      Missing when the creation price is missing or the amount is zero. */
  function Breakeven(t: OptionType, strike: real, totalFee: real, price: Option<real>, amount: real): (r: Option<real>)
    ensures r.Some? <==> price.Some? && amount != 0.0
    ensures r.Some? && t == Call ==> (r.value - strike) * amount == totalFee * price.value
    ensures r.Some? && t == Put ==> (strike - r.value) * amount == totalFee * price.value
    ensures r.Some? && totalFee >= 0.0 && price.value >= 0.0 && amount > 0.0 ==>
              (if t == Call then r.value >= strike else r.value <= strike)
  {
    if price.None? || amount == 0.0 then None
    else
      var feeUsd := totalFee * price.value;
      if t == Call then Some(strike + feeUsd / amount) else Some(strike - feeUsd / amount)
  }

  /** The four moneyness cases of an ACTIVE option. */
  datatype Case = OtmCall | OtmPut | ItmCall | ItmPut

  function Classify(t: OptionType, current: real, strike: real): Case
  {
    match t
    case Call => if current < strike then OtmCall else ItmCall
    case Put => if current > strike then OtmPut else ItmPut
  }

  /** The four cases partition CALL/PUT options by the strike test. */
  lemma ClassifyExact(t: OptionType, current: real, strike: real)
    ensures Classify(t, current, strike) == OtmCall <==> t == Call && current < strike
    ensures Classify(t, current, strike) == ItmCall <==> t == Call && current >= strike
    ensures Classify(t, current, strike) == OtmPut <==> t == Put && current > strike
    ensures Classify(t, current, strike) == ItmPut <==> t == Put && current <= strike
  {
  }

  /** In-the-money value in units of the underlying: the gain over the
      break-even price per unit of current price, times the amount. */
  function ItmValue(gain: Option<real>, amount: real, current: real): (r: Option<real>)
    ensures r.Some? <==> gain.Some? && current != 0.0
    ensures r.Some? ==> r.value * current == gain.value * amount
  {
    if gain.None? || current == 0.0 then None else Some(gain.value * amount / current)
  }

  function Minus(a: real, b: Option<real>): Option<real>
  {
    if b.Some? then Some(a - b.value) else None
  }

  function MinusFrom(a: Option<real>, b: real): Option<real>
  {
    if a.Some? then Some(a.value - b) else None
  }

  /** Projected profit by case analysis. */
  function ProjectedProfit(t: OptionType, current: real, strike: real, premium: real,
                           amount: real, breakeven: Option<real>): Option<real>
  {
    match Classify(t, current, strike)
    case OtmCall => Some(-premium)
    case OtmPut => Some(-premium)
    case ItmCall => ItmValue(Minus(current, breakeven), amount, current)
    case ItmPut => ItmValue(MinusFrom(breakeven, current), amount, current)
  }

  /** One masked column assignment: `cond ? value : previous`. */
  function Masked(cond: bool, value: Option<real>, previous: Option<real>): Option<real>
  {
    if cond then value else previous
  }

  /** The projected-profit column as the source builds it: a missing column
      overwritten by four masked assignments in turn. It agrees with the case
      analysis, so the four cases are exhaustive and mutually exclusive. */
  function ProjectedProfitSteps(t: OptionType, current: real, strike: real, premium: real,
                                amount: real, breakeven: Option<real>): (r: Option<real>)
    ensures r == ProjectedProfit(t, current, strike, premium, amount, breakeven)
  {
    var itmCall := ItmValue(Minus(current, breakeven), amount, current);
    var itmPut := ItmValue(MinusFrom(breakeven, current), amount, current);
    var p1 := Masked(t == Call && current < strike, Some(-premium), None);
    var p2 := Masked(t == Put && current > strike, Some(-premium), p1);
    var p3 := Masked(t == Call && current >= strike, itmCall, p2);
    Masked(t == Put && current <= strike, itmPut, p3)
  }

  /** What the projected profit means: exactly minus the premium out of the
      money; in the money, the gain over break-even scaled by amount/current,
      which is non-negative exactly when the current price has passed the
      break-even price. */
  lemma ProjectedProfitMeaning(t: OptionType, current: real, strike: real, premium: real,
                               amount: real, breakeven: Option<real>)
    ensures var r := ProjectedProfit(t, current, strike, premium, amount, breakeven);
      && ((t == Call && current < strike) || (t == Put && current > strike) ==> r == Some(-premium))
      && ((t == Call && current >= strike) || (t == Put && current <= strike) ==>
            (r.Some? <==> breakeven.Some? && current != 0.0))
      && (t == Call && current >= strike && r.Some? ==>
            r.value * current == (current - breakeven.value) * amount)
      && (t == Put && current <= strike && r.Some? ==>
            r.value * current == (breakeven.value - current) * amount)
      && (t == Call && current >= strike && r.Some? && current > 0.0 && amount > 0.0 ==>
            (r.value >= 0.0 <==> current >= breakeven.value))
      && (t == Put && current <= strike && r.Some? && current > 0.0 && amount > 0.0 ==>
            (r.value >= 0.0 <==> current <= breakeven.value))
  {
    var r := ProjectedProfit(t, current, strike, premium, amount, breakeven);
    if r.Some? && current > 0.0 && amount > 0.0 && breakeven.Some? {
      if t == Call && current >= strike {
        SignOfQuotient(r.value, current - breakeven.value, amount, current);
      } else if t == Put && current <= strike {
        SignOfQuotient(r.value, breakeven.value - current, amount, current);
      }
    }
  }

  lemma SignOfQuotient(q: real, gain: real, amount: real, current: real)
    requires current > 0.0 && amount > 0.0
    requires q * current == gain * amount
    ensures q >= 0.0 <==> gain >= 0.0
  {
    if q >= 0.0 {
      assert q * current >= 0.0;
    } else {
      assert q * current < 0.0;
    }
  }

  // ---------------------------------------------------------------------------
  // Valuing the ACTIVE rows and merging back
  // ---------------------------------------------------------------------------

  /** Moneyness label by the sign of the profit; a missing profit is OTM. */
  function PosOf(profit: Option<real>): (p: Pos)
    ensures p == ITM <==> profit.Some? && profit.value >= 0.0
  {
    if profit.Some? && profit.value >= 0.0 then ITM else OTM
  }

  /** Current spot price of a row's underlying: the WBTC price for WBTC rows,
      the ETH price for every other row. */
  function CurrentPrice(symbol: string, wbtcNow: real, ethNow: real): real
  {
    if symbol == "WBTC" then wbtcNow else ethNow
  }

  /** The valuation columns computed for one ACTIVE row. */
  datatype ActiveValuation = ActiveValuation(id: string, projected: Option<real>, breakeven: Option<real>)

  /** The valuation of one ACTIVE row at the current spot price of its
      underlying: out of the money it loses exactly the premium; in the money
      its value times the spot price is the gain over break-even times the
      amount, and it is missing without a break-even price or at spot 0. */
  function ValueActive(r: OptionRecord, pts: seq<PricePoint>, wbtcNow: real, ethNow: real): (v: ActiveValuation)
    ensures v.id == r.id
    ensures v.breakeven == Breakeven(r.optType, r.strike, r.totalFee, PriceAt(pts, r.symbol, r.timestampUnix), r.amount)
    ensures var current := CurrentPrice(r.symbol, wbtcNow, ethNow);
            && ((r.optType == Call && current < r.strike) || (r.optType == Put && current > r.strike) ==>
                  v.projected == Some(-r.premium))
            && ((r.optType == Call && current >= r.strike) || (r.optType == Put && current <= r.strike) ==>
                  (v.projected.Some? <==> v.breakeven.Some? && current != 0.0))
            && (r.optType == Call && current >= r.strike && v.projected.Some? ==>
                  v.projected.value * current == (current - v.breakeven.value) * r.amount)
            && (r.optType == Put && current <= r.strike && v.projected.Some? ==>
                  v.projected.value * current == (v.breakeven.value - current) * r.amount)
  {
    var price := PriceAt(pts, r.symbol, r.timestampUnix);
    var be := Breakeven(r.optType, r.strike, r.totalFee, price, r.amount);
    var current := CurrentPrice(r.symbol, wbtcNow, ethNow);
    ProjectedProfitMeaning(r.optType, current, r.strike, r.premium, r.amount, be);
    ActiveValuation(r.id, ProjectedProfitSteps(r.optType, current, r.strike, r.premium, r.amount, be), be)
  }

  /** The valued ACTIVE rows, in table order. */
  function ValueAll(rows: seq<OptionRecord>, pts: seq<PricePoint>, wbtcNow: real, ethNow: real): (vs: seq<ActiveValuation>)
    ensures |vs| <= |rows|
    ensures forall v :: v in vs ==> exists i :: 0 <= i < |rows| && rows[i].status == Active && v.id == rows[i].id
  {
    if |rows| == 0 then []
    else
      var head := if rows[0].status == Active then [ValueActive(rows[0], pts, wbtcNow, ethNow)] else [];
      var tail := ValueAll(rows[1..], pts, wbtcNow, ethNow);
      assert forall v :: v in tail ==> exists i :: 0 <= i < |rows| && rows[i].status == Active && v.id == rows[i].id by {
        forall v | v in tail
          ensures exists i :: 0 <= i < |rows| && rows[i].status == Active && v.id == rows[i].id
        {
          var i :| 0 <= i < |rows[1..]| && rows[1..][i].status == Active && v.id == rows[1..][i].id;
          assert rows[i + 1] == rows[1..][i];
        }
      }
      head + tail
  }

  /** The valuations with a given id, in order. */
  function WithId(vs: seq<ActiveValuation>, id: string): (r: seq<ActiveValuation>)
    ensures forall v :: v in r <==> v in vs && v.id == id
  {
    if |vs| == 0 then []
    else (if vs[0].id == id then [vs[0]] else []) + WithId(vs[1..], id)
  }

  /** One merged row: ACTIVE rows take the projected profit, others keep
      their fetched profit; the label follows the resulting profit. */
  function Finish(r: OptionRecord, projected: Option<real>, breakeven: Option<real>): ValuedOption
  {
    var profit := if r.status == Active then projected else r.profit;
    ValuedOption(r.(profit := profit), breakeven, PosOf(profit))
  }

  /** Left merge of one row against the valuations on id: one output row per
      match, or one row with missing columns when nothing matches. */
  function MergeRow(r: OptionRecord, vs: seq<ActiveValuation>): seq<ValuedOption>
  {
    var ms := WithId(vs, r.id);
    if |ms| == 0 then [Finish(r, None, None)]
    else seq(|ms|, k requires 0 <= k < |ms| => Finish(r, ms[k].projected, ms[k].breakeven))
  }

  function Merge(rows: seq<OptionRecord>, vs: seq<ActiveValuation>): seq<ValuedOption>
  {
    if |rows| == 0 then [] else MergeRow(rows[0], vs) + Merge(rows[1..], vs)
  }

  /** get_projected_profit with its network reads as parameters: the two
      historical price series (timestamps in ms) and the two spot prices. */
  function GetProjectedProfit(rows: seq<OptionRecord>, btc: seq<(int, real)>, eth: seq<(int, real)>,
                              wbtcNow: real, ethNow: real): seq<ValuedOption>
  {
    Merge(rows, ValueAll(rows, PriceTable(btc, eth), wbtcNow, ethNow))
  }

  /** The reference valuation of a single row. */
  function ValueRow(r: OptionRecord, pts: seq<PricePoint>, wbtcNow: real, ethNow: real): (v: ValuedOption)
    ensures r.status != Active ==> v.rec == r && v.breakeven.None?
    ensures r.status == Active ==>
              && v.rec == r.(profit := v.rec.profit)
              && v.breakeven == Breakeven(r.optType, r.strike, r.totalFee, PriceAt(pts, r.symbol, r.timestampUnix), r.amount)
              && v.rec.profit == ProjectedProfit(r.optType, CurrentPrice(r.symbol, wbtcNow, ethNow), r.strike,
                                                 r.premium, r.amount, v.breakeven)
    ensures v.pos == ITM <==> v.rec.profit.Some? && v.rec.profit.value >= 0.0
  {
    if r.status == Active then
      var val := ValueActive(r, pts, wbtcNow, ethNow);
      Finish(r, val.projected, val.breakeven)
    else Finish(r, None, None)
  }

  predicate UniqueIds(rows: seq<OptionRecord>)
  {
    forall i, j :: 0 <= i < j < |rows| ==> rows[i].id != rows[j].id
  }

  /** With unique ids, each row's valuations are exactly its own (if ACTIVE). */
  lemma {:induction false} MatchesOfRow(rows: seq<OptionRecord>, pts: seq<PricePoint>, wbtcNow: real, ethNow: real, k: nat)
    requires UniqueIds(rows) && k < |rows|
    ensures WithId(ValueAll(rows, pts, wbtcNow, ethNow), rows[k].id)
            == if rows[k].status == Active then [ValueActive(rows[k], pts, wbtcNow, ethNow)] else []
  {
    var id := rows[k].id;
    var tail := ValueAll(rows[1..], pts, wbtcNow, ethNow);
    var head := if rows[0].status == Active then [ValueActive(rows[0], pts, wbtcNow, ethNow)] else [];
    assert ValueAll(rows, pts, wbtcNow, ethNow) == head + tail;
    WithIdConcat(head, tail, id);
    if k == 0 {
      forall v | v in tail
        ensures v.id != id
      {
        var i :| 0 <= i < |rows[1..]| && rows[1..][i].status == Active && v.id == rows[1..][i].id;
        assert rows[1..][i] == rows[i + 1];
      }
      NoneWithId(tail, id);
    } else {
      assert rows[0].id != id;
      assert rows[1..][k - 1] == rows[k];
      MatchesOfRow(rows[1..], pts, wbtcNow, ethNow, k - 1);
    }
  }

  lemma {:induction false} WithIdConcat(a: seq<ActiveValuation>, b: seq<ActiveValuation>, id: string)
    ensures WithId(a + b, id) == WithId(a, id) + WithId(b, id)
  {
    if |a| > 0 {
      assert (a + b)[1..] == a[1..] + b;
      WithIdConcat(a[1..], b, id);
    } else {
      assert a + b == b;
    }
  }

  lemma {:induction false} NoneWithId(vs: seq<ActiveValuation>, id: string)
    requires forall v :: v in vs ==> v.id != id
    ensures WithId(vs, id) == []
  {
    if |vs| > 0 {
      assert vs[0] in vs;
      NoneWithId(vs[1..], id);
    }
  }

  /** With unique ids the merge keeps one row per input row, in order, and
      that row is the reference valuation of the input row: ACTIVE rows carry
      the projected profit, all other rows and columns are unchanged. */
  lemma {:induction false} GetProjectedProfitPerRow(rows: seq<OptionRecord>, btc: seq<(int, real)>,
                                                    eth: seq<(int, real)>, wbtcNow: real, ethNow: real)
    requires UniqueIds(rows)
    ensures var out := GetProjectedProfit(rows, btc, eth, wbtcNow, ethNow);
            && |out| == |rows|
            && forall i :: 0 <= i < |rows| ==> out[i] == ValueRow(rows[i], PriceTable(btc, eth), wbtcNow, ethNow)
  {
    var pts := PriceTable(btc, eth);
    MergeSuffix(rows, pts, wbtcNow, ethNow, 0);
    assert rows[0..] == rows;
  }

  /** The reference valuation applied row by row. */
  function ValueRows(xs: seq<OptionRecord>, pts: seq<PricePoint>, wbtcNow: real, ethNow: real): (r: seq<ValuedOption>)
    ensures |r| == |xs|
    ensures forall i :: 0 <= i < |xs| ==> r[i] == ValueRow(xs[i], pts, wbtcNow, ethNow)
  {
    if |xs| == 0 then [] else [ValueRow(xs[0], pts, wbtcNow, ethNow)] + ValueRows(xs[1..], pts, wbtcNow, ethNow)
  }

  /** With unique ids, merging any suffix of the table gives the reference
      valuation of that suffix. */
  lemma {:induction false} MergeSuffix(rows: seq<OptionRecord>, pts: seq<PricePoint>, wbtcNow: real, ethNow: real, m: nat)
    requires UniqueIds(rows) && m <= |rows|
    ensures Merge(rows[m..], ValueAll(rows, pts, wbtcNow, ethNow)) == ValueRows(rows[m..], pts, wbtcNow, ethNow)
    decreases |rows| - m
  {
    if m < |rows| {
      assert rows[m..][1..] == rows[m + 1..];
      assert rows[m..][0] == rows[m];
      MergeSuffix(rows, pts, wbtcNow, ethNow, m + 1);
      MergeOwnRow(rows, pts, wbtcNow, ethNow, m);
    }
  }

  lemma MergeOwnRow(rows: seq<OptionRecord>, pts: seq<PricePoint>, wbtcNow: real, ethNow: real, k: nat)
    requires UniqueIds(rows) && k < |rows|
    ensures MergeRow(rows[k], ValueAll(rows, pts, wbtcNow, ethNow)) == [ValueRow(rows[k], pts, wbtcNow, ethNow)]
  {
    MatchesOfRow(rows, pts, wbtcNow, ethNow, k);
  }

  // ---------------------------------------------------------------------------
  // Consequences of the sign-based label
  // ---------------------------------------------------------------------------

  /** The label is by profit sign, not by the strike test: an ACTIVE CALL at
      or above its strike but below its break-even price is labelled OTM. */
  lemma ItmByStrikeLabelledOtm(r: OptionRecord, pts: seq<PricePoint>, wbtcNow: real, ethNow: real)
    requires r.status == Active && r.optType == Call && r.amount > 0.0
    requires var be := Breakeven(r.optType, r.strike, r.totalFee, PriceAt(pts, r.symbol, r.timestampUnix), r.amount);
             var current := CurrentPrice(r.symbol, wbtcNow, ethNow);
             be.Some? && 0.0 < r.strike <= current < be.value
    ensures ValueRow(r, pts, wbtcNow, ethNow).pos == OTM
  {
    var v := ValueRow(r, pts, wbtcNow, ethNow);
    var current := CurrentPrice(r.symbol, wbtcNow, ethNow);
    ProjectedProfitMeaning(r.optType, current, r.strike, r.premium, r.amount, v.breakeven);
  }

  /** No floor is applied: an in-the-money CALL can lose more than its premium
      (strike 100, spot 100, premium 2, break-even 400, amount 1 gives -3). */
  lemma LossBeyondPremium()
    ensures ProjectedProfit(Call, 100.0, 100.0, 2.0, 1.0, Some(400.0)) == Some(-3.0)
  {
    assert ItmValue(Some(-300.0), 1.0, 100.0) == Some(-3.0);
  }

  /** A worked example: an ACTIVE CALL, strike 100, amount 1, premium 2,
      total fee 0.5, created when the price was 95, valued at spot 110. Its
      break-even is 147.5, it is in the money by strike, its profit is
      (110 - 147.5) / 110 = -15/44 and it is labelled OTM. */
  lemma WorkedCall(r: OptionRecord)
    requires r.status == Active && r.optType == Call && r.symbol == "ETH"
    requires r.strike == 100.0 && r.amount == 1.0 && r.premium == 2.0 && r.totalFee == 0.5
    requires r.timestampUnix == 1000
    ensures var v := ValueRow(r, [PricePoint("ETH", 1000, 95.0)], 0.0, 110.0);
            v.breakeven == Some(147.5) && v.rec.profit == Some(-15.0 / 44.0) && v.pos == OTM
  {
    var pts := [PricePoint("ETH", 1000, 95.0)];
    assert NearestIn(pts, "ETH", 1000, 1) == Some(0);
    assert PriceAt(pts, "ETH", 1000) == Some(95.0);
    assert Breakeven(Call, 100.0, 0.5, Some(95.0), 1.0) == Some(147.5);
    assert ItmValue(Some(110.0 - 147.5), 1.0, 110.0) == Some(-15.0 / 44.0);
  }
}
